=== FILE: README.md ===
# saisho in Dafny

A model of the core of saisho, a small static-site generator. It has two parts.

- **The content pipeline** (`saisho/engine.py`):
  - Each markdown source document becomes an `Entry` (`Entry.from_text`). Its title, tags, type, description and date are normalised. Its year and display date ("March 3rd") come from the date.
  - `SaishoEngine` finds the documents to build (`get_file`, `get_all_files`, `_resolve_entries`).
  - It appends their entries to its entry db (`_populate_entries`).
  - `build_pages` renders one page per entry. It then renders an index whose buckets are the years, latest first, each sorted by date, latest first.
- **The preview server's router** (`saisho/server.py`):
  - `_parse_request` maps a request path to a status code, a file under the output folder and a content type.
  - `do_GET` turns that into a response.

Modules:

- `Wrappers`: `Option` and `Result`.
- `Text`: the Python string operations the code uses: `split`, `"".join`, `strip`/`lstrip`/`rstrip`, `split(c)[-1]`, `rfind` and `str(n)`.
- `Dates`: the dates `datetime` holds, and how they compare. It also covers `strftime("%Y-%m-%d")`, `%B`, and `strptime(_, "%Y-%m-%d")` as CPython's `_strptime` patterns accept it.
- `Entries`: `PageTypes`, `Tools.date_suffix`, `Path.name`/`suffix`/`stem`, `Entry` and `Entry.from_text`/`from_file`.
- `YearGroups`: the specification of the year index: grouping, year order, the stable date sort, and the facts proved about them.
- `Engine`: the source folder, `get_file`, `get_all_files`, `_resolve_entries`, `_populate_entries`, and the class `SaishoEngine` with its `entry_db`.
  - The two loops of `build_pages` are methods proved against `YearGroups`.
- `Server`: `extensions_map`, `guess_type` as the table decides it, `_parse_request`, and `do_GET` as written and as intended.

Collaborators the code calls, and how the model treats them:

- The markdown converter and `slugify` are the function fields of `Entries.Collaborators`. Nothing is assumed about them.
- Reading a source file is a function `read` from path to optional text. `None` stands for a `read_text` that raises. That happens when the listed name is a directory, or when the file's bytes are not UTF-8.
- `datetime.now()` is a `today` parameter.
- The source folder is a value: the names `iterdir` lists, in order, and the set of names that are regular files.
- The output folder, for the server, is the set of names under it that exist.
- For `do_GET` as written, a second set holds the names whose bytes decode as UTF-8. A file's bytes are the opaque value `FileContents(name)`, and the text `read_text` makes of them, encoded again, is the opaque value `NewlinesTranslated(name)`.

Behaviours of the code that the model keeps as they are:

- **Empty metadata values.** A metadata key that is present with no parts is not defaulted: the join of no parts is "". So `type` is then "", not "entry", and an empty `date` fails to parse (`saisho/engine.py:106-109`).
- **Leading slashes.** All leading slashes of a request are removed (`lstrip`), not only one.
- **Content types.** The content type of a served file comes from `guess_type`, which applies `posixpath.splitext` to the whole file path, and not from the extension the router looked at. A name whose last component is only dots before its extension therefore gets `application/octet-stream`. Examples are "/.css" and "/.", which is served as "..html".
- **Page kind.** `from_text` stores the raw `type` text in the entry. It never converts it to `PageTypes`, so the model keeps the text in `Entry.pageType`, and `PageTypeOf` is separate.

## Model

| member | source | states |
|---|---|---|
| Text.Split | saisho/engine.py:107 | `split(",")` yields one piece more than there are separators, and no piece contains the separator |
| Text.JoinSplit | saisho/engine.py:107 | joining the pieces of a split with the separator gives back the original text |
| Text.SplitJoin | saisho/engine.py:107 | splitting the join of separator-free pieces gives back the pieces |
| Text.SplitAfterPiece | saisho/engine.py:107 | a separator-free piece followed by the separator is split off whole |
| Text.SplitWithout | saisho/engine.py:107 | a text with no separator splits into itself alone |
| Text.Concat | saisho/engine.py:106 | `"".join(parts)`. Its contract is `ConcatAppend` and `ConcatOne` |
| Text.ConcatAppend | saisho/engine.py:106 | joining two runs of parts with "" is joining each run and putting the results side by side |
| Text.ConcatOne | saisho/engine.py:106 | a single part joins to itself |
| Text.LeadingSpaces | saisho/engine.py:107 | the number of whitespace characters at the front: all of them whitespace, and then a non-whitespace character or the end |
| Text.TrailingSpaces | saisho/engine.py:107 | the number of whitespace characters at the end: all of them whitespace, and before them a non-whitespace character or the start |
| Text.Strip | saisho/engine.py:107 | `strip()` keeps the contiguous middle that starts after the leading whitespace, removes only whitespace from both ends, and leaves no whitespace at either end |
| Text.TrimStart | saisho/server.py:47 | `lstrip` removes a prefix made only of the dropped characters and leaves none at the front |
| Text.TrimEnd | saisho/server.py:24 | `rstrip` removes a suffix made only of the dropped characters and leaves none at the end |
| Text.AfterLast | saisho/server.py:44 | `split(".")[-1]` is a suffix free of the separator, and the separator precedes it unless it is the whole text |
| Text.AfterLastOfTail | saisho/server.py:44 | the text after the last separator is whatever follows it, whatever precedes it |
| Text.AfterLastKeepsTail | saisho/engine.py:214 | a separator-free ending of a path stays inside its last component |
| Text.LastIndex | saisho/engine.py:214 | `rfind` gives -1 or a position holding the character, with none after it |
| Text.NatToDecimal | saisho/engine.py:135 | `str(n)` is a string of digits with no leading zero that reads back as `n` |
| Text.IntToDecimal | saisho/engine.py:135 | `str(date)`: digits with no leading zero that read back as the number, after a minus sign when it is negative. `Entries.DateSuffix` puts it before the ordinal ending |
| Dates.Later | saisho/engine.py:304 | the comparison of `entry.date` values. `LaterIsStrictTotalOrder` is its contract |
| Dates.LaterIsStrictTotalOrder | saisho/engine.py:304 | the date comparison the sort uses is irreflexive, transitive, total and asymmetric |
| Dates.MatchMonth | saisho/engine.py:110 | the `%m` pattern accepts one or two characters giving a month from 1 to 12 |
| Dates.MatchDay | saisho/engine.py:110 | the `%d` pattern accepts one or two characters giving a day from 1 to 31 |
| Dates.ParseDate | saisho/engine.py:110 | `strptime` succeeds only on four digits and a dash at the front, and always with a date `datetime` can hold whose year is those digits. `ParseDateExactly` gives the whole accepted language |
| Dates.ParseDateExactly | saisho/engine.py:110 | `strptime(s, "%Y-%m-%d")` gives `d` exactly when `d` is a date `datetime` can hold and `s` is, with nothing after it: four digits of its year, a dash, a spelling of its month that `%m` accepts (two digits, or one digit below 10), a dash, and a spelling of its day that `%d` accepts (two digits, or, below 10, one digit or a space and a digit) |
| Dates.ParsedIsSpelled | saisho/engine.py:110 | the rejection half: every text `strptime` accepts is such a spelling of the date it gives |
| Dates.SpelledIsParsed | saisho/engine.py:110 | the acceptance half: every such spelling of a date `datetime` can hold is accepted, with that date |
| Dates.MatchedMonthSpelled | saisho/engine.py:110 | what `%m` matches is a spelling of the month it gives |
| Dates.SpelledMonthMatched | saisho/engine.py:110 | a spelling of a month followed by a dash is matched by `%m`, giving that month and the spelling's length |
| Dates.MatchedDaySpelled | saisho/engine.py:110 | what `%d` matches up to the end of the text is a spelling of the day it gives |
| Dates.SpelledDayMatched | saisho/engine.py:110 | a spelling of a day is matched whole by `%d`, giving that day |
| Dates.FormatDate | saisho/engine.py:109 | `strftime("%Y-%m-%d")`. `FourDigitsValue` and `ParseFormatRoundTrip` are its contract |
| Dates.MonthName | saisho/engine.py:111 | `strftime("%B")`, the English name of the month. `Entries.FromTextGivenDate` states that the display date starts with it |
| Dates.FourDigitsValue | saisho/engine.py:109 | `%Y` prints four digits that read back as the year |
| Dates.ParseFormatRoundTrip | saisho/engine.py:109-110 | parsing today's date as printed by `strftime("%Y-%m-%d")` gives today back |
| Dates.ParseDateShortForms | saisho/engine.py:110 | `strptime` also accepts a one-digit month or day, and a day written as a space and a digit |
| Entries.PageTypeOf | saisho/engine.py:15-22 | "page" and "project" give their members, and every other value gives ENTRY |
| Entries.PageTypeValue | saisho/engine.py:15-18 | looking up the value of a member gives that member back |
| Entries.DateSuffix | saisho/engine.py:133-143 | the day in decimal, then "st" for 1, 21 and 31, "nd" for 2 and 22, "rd" for 3 and 23, and "th" for every day not in the table |
| Entries.DateSuffixIsEnglishOrdinal | saisho/engine.py:133-143 | for days 1 to 31 the table agrees with the independent English ordinal rule, 11th to 13th included |
| Entries.TableIsEnglishOrdinal | saisho/engine.py:135-143 | for a day from 1 to 31, the table's suffix, or "th" when the day is missing, is the English ordinal suffix |
| Entries.DateSuffixStopsAtThirtyOne | saisho/engine.py:135-143 | beyond the month the table departs from the English rule: 41 gets "th" |
| Entries.BaseName | saisho/engine.py:214 | `Path.name`, the last component. `BaseNameEndsName` is its contract |
| Entries.BaseNameEndsName | saisho/engine.py:214 | a path's name ends in its last component |
| Entries.Suffix | saisho/engine.py:214 | `Path.suffix`. `NameSuffix` and `SuffixIsMd` are its contract |
| Entries.Stem | saisho/engine.py:123 | `Path.stem`. `NameStem` is its contract |
| Entries.NameSuffix | saisho/engine.py:214 | `Path.suffix` is empty, or a dot-started proper ending of the name. `NameSuffixExactly` says which |
| Entries.NameSuffixExactly | saisho/engine.py:214 | a name has a suffix exactly when it does not end in a dot and holds a dot after its first character, and the suffix is then everything from the last dot on |
| Entries.NameStem | saisho/engine.py:123 | `Path.stem` followed by `Path.suffix` is the name |
| Entries.SuffixIsMd | saisho/engine.py:214 | a path's suffix is ".md" exactly when its name ends in ".md" and its last component is not ".md" alone |
| Entries.BaseNameKeepsMd | saisho/engine.py:214 | a name ending in ".md" has a last component ending in ".md" |
| Entries.MdHasSuffix | saisho/engine.py:214 | a last component ending in ".md" that is not ".md" itself has suffix ".md" |
| Entries.SplitTags | saisho/engine.py:107 | one tag more than there are commas |
| Entries.MetaText | saisho/engine.py:106-112 | `"".join(meta.get(key, default))`. `FromTextTextFields` states what it gives each field |
| Entries.DisplayDate | saisho/engine.py:111 | `%B`, a space and `date_suffix(day)`. `FromTextGivenDate` states it for a given date |
| Entries.DateText | saisho/engine.py:109 | the `date` field joined, or today printed as `%Y-%m-%d`. `FromTextDefaultDate` and `FromTextGivenDate` state the date parsed from it in each case |
| Entries.FromText | saisho/engine.py:101-125 | fails exactly when the date text does not parse, with that text. Otherwise the entry has a valid date, the date's year, the display date of that date, the converter's HTML and the slug of the file's stem |
| Entries.FromTextTags | saisho/engine.py:107 | tags are the stripped comma pieces, in order, one more than the commas, and exactly `[""]` when the field is absent or empty |
| Entries.SplitTagsPieces | saisho/engine.py:107 | each tag is its stripped piece, and an empty text gives `[""]` |
| Entries.FromTextTextFields | saisho/engine.py:106-112 | title, description and type are their parts joined with no separator, and absent they are "", "" and "entry" |
| Entries.FromTextDefaultDate | saisho/engine.py:109-113 | without a date field the entry is dated today, with today's year, and never fails |
| Entries.FromTextGivenDate | saisho/engine.py:109-113 | a readable date field gives that date, its year, and month name + " " + day suffix as display date |
| Entries.FromFile | saisho/engine.py:127-129 | `from_file`: read the file, then `from_text`. `FromFileErrors` is its contract |
| Entries.FromFileErrors | saisho/engine.py:127-129 | fails exactly when the file cannot be read or its date does not parse. An unreadable file gives `Unreadable(file)`, and a readable one the `from_text` result of its text |
| YearGroups.Having | saisho/engine.py:297-299 | a selection is never longer than what it selects from |
| YearGroups.HavingMembers | saisho/engine.py:297-299 | a selection holds exactly the entries that match |
| YearGroups.HavingAppend | saisho/engine.py:296-299 | selecting from two runs of entries is selecting from each, in order |
| YearGroups.NoYearNoHaving | saisho/engine.py:297-298 | a year no entry has selects nothing |
| YearGroups.GroupByYear | saisho/engine.py:295-299 | the `years` dict has a key for each year that occurs, and nothing else, holding that year's entries in entry-db order |
| YearGroups.YearsInOrder | saisho/engine.py:295-299 | the dict's keys in insertion order are distinct and are exactly the years that occur |
| YearGroups.InsertYear | saisho/engine.py:302 | inserting a new year into a strictly descending list keeps it strictly descending, one longer, with the same years plus the new one |
| YearGroups.ConsDescending | saisho/engine.py:302 | a year above every year of a descending list may go in front |
| YearGroups.SortYearsDesc | saisho/engine.py:302 | `sorted(years, reverse=True)` of distinct years is strictly descending, with the same years |
| YearGroups.InsertPermutes | saisho/engine.py:304 | inserting an entry adds exactly it |
| YearGroups.InsertSorted | saisho/engine.py:304 | inserting into a list sorted latest first keeps it sorted |
| YearGroups.NoneLaterInsert | saisho/engine.py:304 | nothing later than a bound enters when an entry no later than it is inserted |
| YearGroups.ConsSorted | saisho/engine.py:304 | an entry no earlier than any of a sorted list may go in front |
| YearGroups.SortByDateDesc | saisho/engine.py:304 | `sorted(bucket, key=date, reverse=True)`. `SortSorted`, `SortPermutes` and `SortStable` are its contract |
| YearGroups.SortSorted | saisho/engine.py:304 | the date sort orders entries latest first |
| YearGroups.SortPermutes | saisho/engine.py:304 | the date sort is a permutation |
| YearGroups.InsertStable | saisho/engine.py:304 | inserting an entry puts it after every entry of the same date |
| YearGroups.EarlierThanFirst | saisho/engine.py:304 | an entry later than the first of a sorted list shares its date with none of it |
| YearGroups.SortStable | saisho/engine.py:304 | the date sort is stable: the entries of any one date keep their order |
| YearGroups.Aggregate | saisho/engine.py:302-304 | there is one bucket per year that occurs |
| YearGroups.Bucket | saisho/engine.py:296-304 | the bucket of one year, sorted latest first. `BucketFacts` is its contract |
| YearGroups.Buckets | saisho/engine.py:303-304 | one bucket per listed year |
| YearGroups.BucketsSnoc | saisho/engine.py:303-304 | one more year adds its bucket last |
| YearGroups.BucketsAt | saisho/engine.py:303-304 | the bucket at each position is that year's bucket |
| YearGroups.AggregateAt | saisho/engine.py:302-304 | the bucket at each position is the bucket of the year at that position of the sorted keys |
| YearGroups.AggregateYears | saisho/engine.py:302 | bucket years are strictly descending, and every year that occurs has a bucket |
| YearGroups.AggregateBuckets | saisho/engine.py:303-304 | each bucket is nonempty and holds exactly its year's entries from the entry db. It is sorted latest first, and entries of equal date keep entry-db order |
| YearGroups.BucketFacts | saisho/engine.py:303-304 | the same facts for the bucket of any one year that occurs |
| YearGroups.AggregatePartition | saisho/engine.py:295-305 | every entry lands in exactly one bucket: the buckets together are the entry db, counted with multiplicity |
| YearGroups.GatherSnoc | saisho/engine.py:296-299 | appending an entry adds it once to its year's group and to no other |
| YearGroups.GatherAll | saisho/engine.py:295-299 | the groups of all occurring years, together, are the entry db |
| YearGroups.GatherNone | saisho/engine.py:295 | with no entries, every group is empty |
| YearGroups.FlattenGather | saisho/engine.py:303-305 | the buckets hold what the groups hold |
| Engine.WithMd | saisho/engine.py:206-207 | the looked-up name ends in ".md", and equals the given name exactly when that already ends in ".md", else it is name + ".md" |
| Engine.GetFile | saisho/engine.py:205-211 | a path exactly when the ".md" name is a regular file, and then under that name; otherwise no path |
| Engine.MdFile | saisho/engine.py:214 | one listed name gives at most one path |
| Engine.MdFiles | saisho/engine.py:213-215 | never more paths than listed names. The three lemmas below state its members, its order and the one-name case |
| Engine.MdFilesMembers | saisho/engine.py:214 | a path is in the result exactly when its name is listed and its suffix is ".md" |
| Engine.MdFilesAppend | saisho/engine.py:214 | filtering two listings one after the other is filtering each, in listing order |
| Engine.MdFilesOne | saisho/engine.py:214 | one name gives its path when its suffix is ".md", and nothing otherwise |
| Engine.GetAllFiles | saisho/engine.py:213-215 | `get_all_files`. `GetAllFilesAreMarkdown` is its contract |
| Engine.GetAllFilesAreMarkdown | saisho/engine.py:213-215 | `get_all_files` gives exactly the listed names ending in ".md" other than ".md" itself |
| Engine.Resolve | saisho/engine.py:217-235 | `_resolve_entries`. `SaishoEngine.ResolveEntries` is proved equal to it |
| Engine.Found | saisho/engine.py:231-235 | never longer than the request |
| Engine.FoundMembers | saisho/engine.py:231-235 | every found path is a regular file whose name ends in ".md" |
| Engine.FoundStep | saisho/engine.py:232-234 | one more requested name adds its file, when there is one, at the end |
| Engine.FoundAppend | saisho/engine.py:231-235 | two requests one after the other find their files in request order, repeats kept |
| Engine.FoundOne | saisho/engine.py:233-234 | one requested name gives its file, or nothing when it is missing |
| Engine.FoundSkipsMissing | saisho/engine.py:233-234 | a missing name is skipped and changes nothing else |
| Engine.FoundAllPresent | saisho/engine.py:231-235 | when every name is present, the result matches the request name by name |
| Engine.ParseFiles | saisho/engine.py:190-191 | the entries of the files in order, until one fails, and then that file's error |
| Engine.ParseFilesStops | saisho/engine.py:190-191 | once a file fails, the files after it are never read |
| Engine.ParseFilesFailsAt | saisho/engine.py:190-191 | a failing file makes the population fail, with only entries of files before it |
| Engine.UnreadableListingFails | saisho/engine.py:213-215 | a listed name ending in ".md" that cannot be read, such as a directory "drafts.md", makes populating from `get_all_files` fail |
| Engine.PageNames | saisho/engine.py:242 | one page per entry, in entry-db order, named after its uri plus ".html" |
| Engine.BucketByYear | saisho/engine.py:295-300 | the first loop of `build_pages` builds the `years` dict `GroupByYear` specifies, with its keys in `YearsInOrder` order and the page names in entry-db order |
| Engine.BucketStep | saisho/engine.py:296-300 | one more entry updates dict, key order and page names as the loop body does |
| Engine.SortBuckets | saisho/engine.py:302-304 | sorting the keys and each bucket gives the index `Aggregate` specifies |
| Engine.BucketFromDict | saisho/engine.py:303-304 | each sorted key is in the dict, and its sorted bucket is the next bucket of `Aggregate` |
| Engine.SaishoEngine.constructor | saisho/engine.py:174-176 | the entry db starts empty |
| Engine.SaishoEngine.ResolveEntries | saisho/engine.py:217-235 | everything `get_all_files` lists when no names or an empty list is given, and otherwise the found files in request order |
| Engine.SaishoEngine.PopulateEntries | saisho/engine.py:188-192 | appends each file's entry in order, keeps the earlier entries, and answers the new total length. A failing file stops it with that file's error, after the entries before it are appended |
| Engine.SaishoEngine.BuildPages | saisho/engine.py:291-306 | populates the entry db from the resolved files and stops with the error of a bad date. Otherwise it renders one page per entry of the whole db in db order, then "index.html", with the index `Aggregate` specifies |
| Server.Extension | saisho/server.py:44 | `self.path.split(".")[-1]`. `DotBeforeExtension` is its contract |
| Server.KnownExtension | saisho/server.py:45 | `extensions_map.get(f".{ext}")` is truthy. `KnownExtensions` is its contract |
| Server.KnownExtensions | saisho/server.py:9-16 | the known extensions are exactly html, css, jpg, jpeg and ico, and the empty key never matches |
| Server.WithHtml | saisho/server.py:44-46 | the path is kept when its extension is known, and otherwise gets ".html" |
| Server.SplitExt | saisho/server.py:50 | the extension `guess_type` finds is empty, or a dot-started ending with no further dot and no slash. `SplitExtExactly` says which |
| Server.SplitExtExactly | saisho/server.py:50 | `posixpath.splitext` finds an extension exactly when the last component holds a dot after a character other than a dot, and the extension is then everything from the last dot on |
| Server.GuessType | saisho/server.py:50 | a type exactly when the extension `splitext` finds is a key of the table, and then that key's type |
| Server.ServedNameHasTableType | saisho/server.py:44-50 | the name a request is served under always has an extension the table knows, so `guess_type` never needs its fallbacks |
| Server.HtmlServedType | saisho/server.py:45-50 | a name given ".html" has extension ".html" or none |
| Server.KnownServedType | saisho/server.py:44-50 | a name kept for its known extension has that extension or none |
| Server.ServedExtension | saisho/server.py:47-50 | removing leading slashes keeps the extension, or leaves none |
| Server.NoDotNoExtension | saisho/server.py:47-50 | a name without a dot has no extension |
| Server.DotBeforeExtension | saisho/server.py:44 | a path with a dot ends in a dot and the text after the last dot |
| Server.DotTails | saisho/server.py:50 | two dot-started endings free of further dots are the same |
| Server.ParseRequest | saisho/server.py:32-52 | only 200, 301 or 404. 301 exactly for a path other than "/" ending in a slash, serving the output folder as application/octet-stream. 404 exactly when "/" has no index or a path not ending in a slash has no served name, serving the output folder as text/html. A 200 serves an existing name, with the table's type for that name's extension |
| Server.RootRequest | saisho/server.py:33-38 | "/" is the index page as text/html when it exists, and otherwise 404 |
| Server.TrailingSlashRedirects | saisho/server.py:40-42 | any other path ending in a slash is 301, whatever exists |
| Server.MissingPageNotFound | saisho/server.py:47-52 | a path not ending in a slash whose served name does not exist is 404 on the output folder as text/html, and "/missing-page" is one |
| Server.FoundExactlyWhenExists | saisho/server.py:33-52 | 200 exactly when the index (for "/") or the served name (for a path not ending in a slash) exists, and then that name is served |
| Server.ServedName | saisho/server.py:44-47 | the name a request is looked up under. `ServedNameShape` is its contract |
| Server.ServedNameShape | saisho/server.py:44-47 | the served name starts with no slash and is the request, plus any ".html", less its leading slashes only |
| Server.TrimmedSlashes | saisho/server.py:47 | `lstrip("/")` removes exactly the leading slashes |
| Server.NoDotGetsHtml | saisho/server.py:44-46 | a request starting with a slash and holding no dot always gets ".html" |
| Server.BareExtensionWordKeptAsIs | saisho/server.py:44-50 | a request that is only a known extension word, such as "css" without its slash, is served under itself, and as application/octet-stream when it exists |
| Server.BareWordServed | saisho/server.py:44-50 | the same for any known extension word free of dots and slashes |
| Server.BareWordName | saisho/server.py:44-47 | such a word is its own served name |
| Server.PagesServedAsHtml | saisho/server.py:44-50 | a page requested without an extension is served, when it exists, as text/html under its ".html" name |
| Server.PageNameType | saisho/server.py:44-50 | a request starting with a slash, with no dot and no trailing slash, is served under a name whose extension is ".html" |
| Server.UnknownExtensionServedAsHtml | saisho/server.py:44-50 | a request whose extension the table does not know, ending in neither a dot nor a slash, is served, when its ".html" name exists, as text/html |
| Server.UnknownNameType | saisho/server.py:44-50 | such a request is served under a name whose extension is ".html" |
| Server.DottedPageServedAsHtml | saisho/server.py:44-50 | "/notes.v2" is served from "notes.v2.html" as text/html |
| Server.HiddenNameServedAsDefault | saisho/server.py:44-50 | "/.css" keeps its known extension, and ".css" is served as application/octet-stream |
| Server.DotNameNoExtension | saisho/server.py:50 | a name that starts with its only dot, such as ".css", has no extension |
| Server.OneSlashTrimmed | saisho/server.py:47 | a name with one leading slash loses just that slash |
| Server.NotSlashEnded | saisho/server.py:33-40 | a nonempty path whose last character is not a slash is neither "/" nor slash-ended |
| Server.NameType | saisho/server.py:47-50 | a name ending in an extension after a character that is neither a dot nor a slash keeps that extension, whatever leading slashes are removed |
| Server.ExtTail | saisho/server.py:50 | a name ending in a dot-started extension after a character that is neither a dot nor a slash has that extension |
| Server.ServedWithType | saisho/server.py:43-50 | a request not ending in a slash whose served name exists and has a known extension is 200, under that name, with that extension's type |
| Server.KnownTypeServed | saisho/server.py:44-50 | "/<stem>.<e>" for each of html, css, jpg, jpeg and ico, when its name exists, is 200 with the table's type for ".<e>" |
| Server.KnownExtensionServed | saisho/server.py:44-50 | the same for any known extension free of dots and slashes |
| Server.KnownExtensionKept | saisho/server.py:44-46 | a path ending in a known extension is not given ".html" |
| Server.KnownExtensionFound | saisho/server.py:47-50 | such a path, less its leading slashes, has that extension for `guess_type` |
| Server.StylesheetServedAsCss | saisho/server.py:44-50 | "/style.css" is served as text/css when it exists |
| Server.LogoServedAsJpeg | saisho/server.py:44-50 | "/logo.jpg" is served as image/jpeg when it exists |
| Server.RedirectLocation | saisho/server.py:24 | `self.path.rstrip("/")`. `RedirectLocationShape` is its contract |
| Server.RedirectLocationShape | saisho/server.py:24 | the redirect target has no trailing slash, and the request is the target followed by slashes only |
| Server.NotFoundLinksHome | saisho/server.py:26-28 | the fixed not-found body holds a link to "/" |
| Server.DoGetAsWritten | saisho/server.py:18-30 | `do_GET` as written: a found file that decodes is sent as its text with newlines translated. `RedirectNeverAnswered` and `BinaryFileNeverAnswered` state when it answers nothing |
| Server.RedirectNeverAnswered | saisho/server.py:22-24 | as written, no directory-style request such as "/posts/" gets an answer |
| Server.BinaryFileNeverAnswered | saisho/server.py:20-21 | as written, a found file whose bytes are not UTF-8 gets no answer, and "/logo.jpg" is one |
| Server.DoGet | saisho/server.py:18-30 | the response code is the router's. A 200 carries the served file's bytes as they are, with the router's type. A 404 carries the fixed body as text/html. There is a Location exactly for 301 |
| Server.DoGetAnswersEverything | saisho/server.py:18-30 | every directory-style request is redirected to the path without its trailing slashes. Whenever the written code answers, the corrected one answers with the same code, Location, type and body, except that a found file is sent as its bytes rather than as its newline-translated text |

## Left out

- Terminal output (`TerminalPrint`, `MessageTypes`, `Tools.colorize_bool`) and `Tools.size` are colour codes, printing and float formatting.
- The markdown converter, `slugify`, `ibis` template loading and rendering, and `minify_html` are library code. The first two are the uninterpreted functions of `Entries.Collaborators`. Rendering is modelled only by the output names: `<uri>.html` per entry and `index.html`.
- File I/O is not modelled:
  - `read_text` is the `read` parameter, which answers `None` where it raises;
  - the server's `read_text(encoding="utf-8")` is the set of names whose bytes decode, and decoding itself is not modelled;
  - the writes of `render_page` and `render_list` are not modelled;
  - `copy_stylesheets` and `Tools.create_if_missing` are not modelled;
  - `Path.absolute()` (which prefixes the working directory) and pathlib's normalisation of repeated slashes and "." components are left out.
- `SaishoEngine.__init__` / `_check_folders` (folder checks that call `exit(1)`) and `_set_output_folder` are not modelled, and neither is the unused `years` field. Only `entry_db` is a field of the model's class.
- `build_pages` renders through the module-level `saisho_engine` singleton, not through `self`. The model treats both as the same engine.
- `build_single_page` and `build_all_pages` are superseded by `build_pages` and are not modelled.
- The ibis filters `date_suffix` (a call of `Tools.date_suffix`) and `timestamp_to_date` (clock and time zone) are not modelled.
- `strptime` is modelled for ASCII digits only. CPython's `\d` also accepts other Unicode decimal digits.
- `%Y` of a year below 1000 is modelled zero-padded to four digits, as recent CPython prints it. Older CPython versions on glibc print such a year unpadded, and the default date would then fail to parse. `now()` gives no such year in practice.
- `%B` is modelled as the C-locale English month names.
- The server's HTTP plumbing is not modelled: `Server.run`, `HTTPServer`, header and body writing in `_send_response`, the check of the request's own `Content-Type` header, and the stray `self.send_response(301)` inside `_parse_request`.
- `Server.GuessType`: the case-folded retry and the `mimetypes` registry that `guess_type` consults for extensions missing from the table are not modelled. The result is `None` instead. `Server.ServedNameHasTableType` proves the router never reaches them.
- `Server.DoGetAsWritten`: the newline translation of `read_text` (each "\r\n" and lone "\r" read as "\n") is the opaque body `NewlinesTranslated(name)`. The model does not compute the translated bytes, so it does not say which files it changes.
- The command-line files (`saisho/main.py`, `saisho/commands/*.py`) are not part of this model.

## Findings

| source | as written | input that shows it | evidently intended | confidence | as-written member | corrected member |
|---|---|---|---|---|---|---|
| saisho/server.py:22-24 | The 301 branch of `do_GET` calls `self._send_response(301)` with one of its three required arguments. That raises `TypeError` before the `Location` header is added, and line 30 would then read the unbound `content`. No redirect is ever sent. | GET "/posts/" (any path other than "/" ending in "/") | answer 301 with `Location` set to the path without its trailing slashes and no body | high (not executed) | `Server.DoGetAsWritten` (shown by `Server.RedirectNeverAnswered`) | `Server.DoGet` (proved by `Server.DoGetAnswersEverything`) |
| saisho/server.py:21 | A found file is read with `read_text(encoding="utf-8")` and encoded again. Even a file that decodes has its "\r\n" and lone "\r" turned into "\n". The bytes of a JPEG or icon, which the table advertises as image/jpeg or image/vnd.microsoft.icon, are not UTF-8: every JPEG starts with the byte 0xFF. So `UnicodeDecodeError` is raised and no response is sent. | GET "/logo.jpg" where logo.jpg is a JPEG file | send the file's bytes unchanged, with the guessed type | high (not executed) | `Server.DoGetAsWritten` (shown by `Server.BinaryFileNeverAnswered`) | `Server.DoGet` (proved by `Server.DoGetAnswersEverything`) |

=== FILE: Dates.dfy ===
/**
 * The calendar dates an entry carries: what `datetime` accepts, how two
 * dates compare, the English month names `%B` prints, and the two
 * conversions the content pipeline uses, `strftime("%Y-%m-%d")` (for the
 * default date) and `strptime(text, "%Y-%m-%d")` (for the `date` field).
 */
module Dates {
  import opened Wrappers
  import opened Text

  /** A `datetime` at midnight, which is all that parsing `%Y-%m-%d` produces. */
  datatype Date = Date(year: int, month: int, day: int)

  predicate IsLeapYear(y: int) {
    y % 4 == 0 && (y % 100 != 0 || y % 400 == 0)
  }

  function DaysInMonth(y: int, m: int): int
    requires 1 <= m <= 12
  {
    if m == 2 then (if IsLeapYear(y) then 29 else 28)
    else if m == 4 || m == 6 || m == 9 || m == 11 then 30
    else 31
  }

  /** The dates `datetime` can represent: years 1 to 9999, a month, a day of that month. */
  predicate IsValid(d: Date) {
    1 <= d.year <= 9999 && 1 <= d.month <= 12 && 1 <= d.day <= DaysInMonth(d.year, d.month)
  }

  /** `a > b` on `datetime` values: strictly later in the calendar. */
  predicate Later(a: Date, b: Date) {
    || a.year > b.year
    || (a.year == b.year && a.month > b.month)
    || (a.year == b.year && a.month == b.month && a.day > b.day)
  }

  /** `Later` is a strict total order on dates. */
  lemma LaterIsStrictTotalOrder(a: Date, b: Date, c: Date)
    ensures !Later(a, a)
    ensures Later(a, b) && Later(b, c) ==> Later(a, c)
    ensures a != b ==> Later(a, b) || Later(b, a)
    ensures Later(a, b) ==> !Later(b, a)
  {
  }

  /** `strftime("%B")` in the C locale. */
  function MonthName(m: int): string
    requires 1 <= m <= 12
  {
    [ "January", "February", "March", "April", "May", "June", "July",
      "August", "September", "October", "November", "December" ][m - 1]
  }

  /** Two decimal digits, zero-padded, as `%m` and `%d` print them. */
  function TwoDigits(n: nat): (s: string)
    requires n < 100
  {
    [DigitChar(n / 10), DigitChar(n % 10)]
  }

  /** Four decimal digits, zero-padded, as `%Y` prints a year. */
  function FourDigits(n: nat): (s: string)
    requires n < 10000
  {
    [DigitChar(n / 1000), DigitChar(n / 100 % 10), DigitChar(n / 10 % 10), DigitChar(n % 10)]
  }

  /** `d.strftime("%Y-%m-%d")`. */
  function FormatDate(d: Date): (s: string)
    requires IsValid(d)
  {
    FourDigits(d.year) + "-" + TwoDigits(d.month) + "-" + TwoDigits(d.day)
  }

  /**
   * The `%m` pattern of `strptime`, `1[0-2]|0[1-9]|[1-9]`, at the start of
   * `t`: the first alternative that matches gives the month and the number
   * of characters it took.
   */
  function MatchMonth(t: string): (r: Option<(int, nat)>)
    ensures r.Some? ==> 1 <= r.value.0 <= 12 && 1 <= r.value.1 <= 2 && r.value.1 <= |t|
  {
    if |t| >= 2 && t[0] == '1' && '0' <= t[1] <= '2' then Some((10 + DigitValue(t[1]), 2))
    else if |t| >= 2 && t[0] == '0' && '1' <= t[1] <= '9' then Some((DigitValue(t[1]), 2))
    else if |t| >= 1 && '1' <= t[0] <= '9' then Some((DigitValue(t[0]), 1))
    else None
  }

  /**
   * The `%d` pattern of `strptime`, `3[01]|[12]\d|0[1-9]|[1-9]| [1-9]`, at
   * the start of `t` (note the last alternative: a space before a single
   * digit is accepted).
   */
  function MatchDay(t: string): (r: Option<(int, nat)>)
    ensures r.Some? ==> 1 <= r.value.0 <= 31 && 1 <= r.value.1 <= 2 && r.value.1 <= |t|
  {
    if |t| >= 2 && t[0] == '3' && '0' <= t[1] <= '1' then Some((30 + DigitValue(t[1]), 2))
    else if |t| >= 2 && '1' <= t[0] <= '2' && IsDigit(t[1]) then Some((10 * DigitValue(t[0]) + DigitValue(t[1]), 2))
    else if |t| >= 2 && t[0] == '0' && '1' <= t[1] <= '9' then Some((DigitValue(t[1]), 2))
    else if |t| >= 1 && '1' <= t[0] <= '9' then Some((DigitValue(t[0]), 1))
    else if |t| >= 2 && t[0] == ' ' && '1' <= t[1] <= '9' then Some((DigitValue(t[1]), 2))
    else None
  }

  /**
   * `datetime.strptime(s, "%Y-%m-%d")`, with `None` where it raises
   * `ValueError`: four digits, `-`, a month, `-`, a day, nothing left over
   * ("unconverted data remains"), and a date `datetime` can hold (so
   * "2023-02-29" and "0000-01-01" fail).
   */
  function ParseDate(s: string): (r: Option<Date>)
    ensures r.Some? ==> IsValid(r.value)
    ensures r.Some? ==> |s| >= 8 && AllDigits(s[..4]) && s[4] == '-' && r.value.year == DigitsValue(s[..4])
  {
    if |s| < 5 || !AllDigits(s[..4]) || s[4] != '-' then None
    else match MatchMonth(s[5..])
      case None => None
      case Some((month, n)) =>
        var rest := s[5 + n..];
        if rest == [] || rest[0] != '-' then None
        else match MatchDay(rest[1..])
          case None => None
          case Some((day, k)) =>
            var date := Date(DigitsValue(s[..4]), month, day);
            if k == |rest| - 1 && IsValid(date) then Some(date) else None
  }

  /** How `%m` may write month `m`: two digits, or one digit below 10. */
  function MonthSpellings(m: int): set<string>
    requires 1 <= m <= 12
  {
    if m < 10 then {TwoDigits(m), [DigitChar(m)]} else {TwoDigits(m)}
  }

  /** How `%d` may write day `d`: two digits, or below 10 one digit or a space and one digit. */
  function DaySpellings(d: int): set<string>
    requires 1 <= d <= 31
  {
    if d < 10 then {TwoDigits(d), [DigitChar(d)], " " + [DigitChar(d)]} else {TwoDigits(d)}
  }

  /**
   * `s` writes `d` as `%Y-%m-%d` allows: four digits reading as the year,
   * a dash, a spelling of the month, a dash and a spelling of the day, and
   * nothing else.
   */
  predicate SpellsDate(s: string, d: Date)
    requires IsValid(d)
  {
    && |s| >= 8 && AllDigits(s[..4]) && DigitsValue(s[..4]) == d.year && s[4] == '-'
    && (|| (s[5..6] in MonthSpellings(d.month) && s[6] == '-' && s[7..] in DaySpellings(d.day))
        || (s[5..7] in MonthSpellings(d.month) && s[7] == '-' && s[8..] in DaySpellings(d.day)))
  }

  lemma DigitRoundTrip(ch: char)
    requires IsDigit(ch)
    ensures DigitChar(DigitValue(ch)) == ch
  {
  }

  /** What `%m` matched spells the month it gave. */
  lemma MatchedMonthSpelled(t: string)
    requires MatchMonth(t).Some?
    ensures var (m, n) := MatchMonth(t).value; t[..n] in MonthSpellings(m)
  {
    var (m, n) := MatchMonth(t).value;
    if n == 2 {
      DigitRoundTrip(t[1]);
      assert t[..2] == [t[0], t[1]];
      if t[0] == '1' {
        assert TwoDigits(m) == [DigitChar(1), DigitChar(m % 10)];
      } else {
        assert TwoDigits(m) == [DigitChar(0), DigitChar(m)];
      }
    } else {
      DigitRoundTrip(t[0]);
      assert t[..1] == [t[0]];
    }
  }

  /** A spelling of a month followed by a dash is matched by `%m` whole. */
  lemma SpelledMonthMatched(t: string, m: int, n: nat)
    requires 1 <= m <= 12 && n < |t| && t[..n] in MonthSpellings(m) && t[n] == '-'
    ensures MatchMonth(t) == Some((m, n))
  {
    if t[..n] == TwoDigits(m) {
      assert t[0] == DigitChar(m / 10) && t[1] == DigitChar(m % 10);
    } else {
      assert t[..n] == [DigitChar(m)];
      assert t[0] == DigitChar(m);
    }
  }

  /** What `%d` matched, when it is the whole rest of the text, spells the day it gave. */
  lemma MatchedDaySpelled(t: string)
    requires MatchDay(t).Some? && MatchDay(t).value.1 == |t|
    ensures t in DaySpellings(MatchDay(t).value.0)
  {
    var (d, k) := MatchDay(t).value;
    if k == 2 {
      DigitRoundTrip(t[1]);
      assert t == [t[0], t[1]];
      if t[0] == ' ' {
        assert t == " " + [DigitChar(d)];
      } else {
        DigitRoundTrip(t[0]);
        assert TwoDigits(d) == [DigitChar(d / 10), DigitChar(d % 10)];
      }
    } else {
      DigitRoundTrip(t[0]);
      assert t == [t[0]];
    }
  }

  /** Each spelling of a day is matched by `%d` whole. */
  lemma SpelledDayMatched(t: string, d: int)
    requires 1 <= d <= 31 && t in DaySpellings(d)
    ensures MatchDay(t) == Some((d, |t|))
  {
    if t == TwoDigits(d) {
      assert t[0] == DigitChar(d / 10) && t[1] == DigitChar(d % 10);
    } else if t == [DigitChar(d)] {
      assert t[0] == DigitChar(d);
    } else {
      assert t == " " + [DigitChar(d)];
      assert t[0] == ' ' && t[1] == DigitChar(d);
    }
  }

  /**
   * `strptime(s, "%Y-%m-%d")` gives `d` exactly when `d` is a date
   * `datetime` can hold and `s` is one of its spellings: text after the
   * day, a month or day outside its range or spelled otherwise, and
   * anything but four year digits make it fail.
   */
  lemma ParseDateExactly(s: string, d: Date)
    ensures ParseDate(s) == Some(d) <==> IsValid(d) && SpellsDate(s, d)
  {
    if ParseDate(s) == Some(d) {
      ParsedIsSpelled(s);
    }
    if IsValid(d) && SpellsDate(s, d) {
      SpelledIsParsed(s, d);
    }
  }

  lemma ParsedIsSpelled(s: string)
    requires ParseDate(s).Some?
    ensures SpellsDate(s, ParseDate(s).value)
  {
    var d := ParseDate(s).value;
    var (month, n) := MatchMonth(s[5..]).value;
    MatchedMonthSpelled(s[5..]);
    var rest := s[5 + n..];
    assert rest[1..] == s[6 + n..];
    MatchedDaySpelled(rest[1..]);
    assert s[5..][..n] == s[5..5 + n];
  }

  lemma SpelledIsParsed(s: string, d: Date)
    requires IsValid(d) && SpellsDate(s, d)
    ensures ParseDate(s) == Some(d)
  {
    var n := if s[5..6] in MonthSpellings(d.month) && s[6] == '-' && s[7..] in DaySpellings(d.day) then 1 else 2;
    assert s[5..][..n] == s[5..5 + n];
    SpelledMonthMatched(s[5..], d.month, n);
    var rest := s[5 + n..];
    assert rest[1..] == s[6 + n..];
    SpelledDayMatched(rest[1..], d.day);
  }

  lemma DigitsValueAppend(s: string, ch: char)
    requires AllDigits(s) && IsDigit(ch)
    ensures AllDigits(s + [ch]) && DigitsValue(s + [ch]) == 10 * DigitsValue(s) + DigitValue(ch)
  {
    assert (s + [ch])[..|s|] == s;
  }

  lemma FourDigitsValue(n: nat)
    requires n < 10000
    ensures AllDigits(FourDigits(n)) && DigitsValue(FourDigits(n)) == n
  {
    var a, b, c, d := DigitChar(n / 1000), DigitChar(n / 100 % 10), DigitChar(n / 10 % 10), DigitChar(n % 10);
    DigitsValueAppend([], a);
    assert [] + [a] == [a];
    DigitsValueAppend([a], b);
    DigitsValueAppend([a, b], c);
    DigitsValueAppend([a, b, c], d);
    assert [a] + [b] == [a, b] && [a, b] + [c] == [a, b, c] && [a, b, c] + [d] == FourDigits(n);
    assert n / 100 == 10 * (n / 1000) + n / 100 % 10;
    assert n / 10 == 10 * (n / 100) + n / 10 % 10;
    assert n == 10 * (n / 10) + n % 10;
  }

  lemma MatchTwoDigitMonth(m: int, t: string)
    requires 1 <= m <= 12
    ensures MatchMonth(TwoDigits(m) + t) == Some((m, 2))
  {
  }

  lemma MatchTwoDigitDay(d: int)
    requires 1 <= d <= 31
    ensures MatchDay(TwoDigits(d)) == Some((d, 2))
  {
  }

  /** Parsing what `strftime("%Y-%m-%d")` printed gives back the same date. */
  lemma ParseFormatRoundTrip(d: Date)
    requires IsValid(d)
    ensures ParseDate(FormatDate(d)) == Some(d)
  {
    var s := FormatDate(d);
    FourDigitsValue(d.year);
    assert s[..4] == FourDigits(d.year);
    assert s[5..] == TwoDigits(d.month) + "-" + TwoDigits(d.day);
    MatchTwoDigitMonth(d.month, "-" + TwoDigits(d.day));
    assert s[7..] == "-" + TwoDigits(d.day);
    MatchTwoDigitDay(d.day);
    assert s[7..][1..] == TwoDigits(d.day);
  }

  /**
   * `strptime` also takes a month or a day written with one digit, and a day
   * written as a space and one digit.
   */
  lemma ParseDateShortForms(d: Date)
    requires IsValid(d) && d.month < 10 && d.day < 10
    ensures ParseDate(FourDigits(d.year) + "-" + [DigitChar(d.month)] + "-" + [DigitChar(d.day)]) == Some(d)
    ensures ParseDate(FourDigits(d.year) + "-" + TwoDigits(d.month) + "- " + [DigitChar(d.day)]) == Some(d)
  {
    FourDigitsValue(d.year);
    var s := FourDigits(d.year) + "-" + [DigitChar(d.month)] + "-" + [DigitChar(d.day)];
    assert s[..4] == FourDigits(d.year) && s[5..] == [DigitChar(d.month)] + "-" + [DigitChar(d.day)];
    assert s[6..] == "-" + [DigitChar(d.day)] && s[6..][1..] == [DigitChar(d.day)];
    var t := FourDigits(d.year) + "-" + TwoDigits(d.month) + "- " + [DigitChar(d.day)];
    assert t[..4] == FourDigits(d.year) && t[5..] == TwoDigits(d.month) + "- " + [DigitChar(d.day)];
    MatchTwoDigitMonth(d.month, "- " + [DigitChar(d.day)]);
    assert t[7..] == "- " + [DigitChar(d.day)] && t[7..][1..] == " " + [DigitChar(d.day)];
  }
}

=== FILE: Engine.dfy ===
/**
 * `SaishoEngine`: finding the source documents to build, turning them into
 * entries appended to the entry db, and preparing what `build_pages`
 * renders (one page per entry and the year-grouped index).
 *
 * The source folder is a value: the names `iterdir` lists, in its order, and
 * the set of names that are regular files. Reading a file is the function
 * `read`; the markdown converter and `slugify` are `tools`; `today` stands
 * for `datetime.now()`.
 */
module Engine {
  import opened Wrappers
  import opened Text
  import opened Dates
  import opened Entries
  import opened YearGroups

  /** The source folder: what `iterdir` lists, and which names `is_file` accepts. */
  datatype SourceFolder = SourceFolder(listing: seq<string>, files: set<string>)

  /** The name `get_file` looks up: ".md" is added unless it is already there. */
  function WithMd(name: string): (r: string)
    ensures EndsWith(r, ".md")
    ensures r == name <==> EndsWith(name, ".md")
    ensures r != name ==> r == name + ".md"
  {
    if EndsWith(name, ".md") then name else name + ".md"
  }

  /** `get_file`: the path when the looked-up name is a regular file, else `False`. */
  function GetFile(fs: SourceFolder, name: string): (r: Option<SourcePath>)
    ensures r.Some? <==> WithMd(name) in fs.files
    ensures r.Some? ==> r.value.name == WithMd(name)
  {
    var filename := WithMd(name);
    if filename in fs.files then Some(SourcePath(filename)) else None
  }

  /** The listed names whose `Path.suffix` is ".md", in listing order. */
  function MdFiles(names: seq<string>): (r: seq<SourcePath>)
    ensures |r| <= |names|
  {
    if names == [] then [] else MdFile(names[0]) + MdFiles(names[1..])
  }

  /** The one listed name, kept when its suffix is ".md". */
  function MdFile(name: string): (r: seq<SourcePath>)
    ensures |r| <= 1
  {
    if Suffix(SourcePath(name)) == ".md" then [SourcePath(name)] else []
  }

  /** `get_all_files` keeps exactly the listed names whose suffix is ".md". */
  lemma {:induction false} MdFilesMembers(names: seq<string>)
    ensures forall p :: p in MdFiles(names) <==> p.name in names && Suffix(p) == ".md"
  {
    if names != [] {
      MdFilesMembers(names[1..]);
      assert forall p :: p in MdFile(names[0]) <==> p.name == names[0] && Suffix(p) == ".md";
      assert forall q: SourcePath :: q.name in names <==> q.name == names[0] || q.name in names[1..];
    }
  }

  /** Two listings one after the other: order and repeats are kept. */
  lemma {:induction false} MdFilesAppend(a: seq<string>, b: seq<string>)
    ensures MdFiles(a + b) == MdFiles(a) + MdFiles(b)
  {
    if a == [] {
      assert a + b == b;
    } else {
      assert MdFiles(a + b) == MdFile(a[0]) + MdFiles(a[1..] + b) by {
        assert (a + b)[0] == a[0] && (a + b)[1..] == a[1..] + b;
      }
      MdFilesAppend(a[1..], b);
      Associative(MdFile(a[0]), MdFiles(a[1..]), MdFiles(b));
    }
  }

  /** One listed name is kept exactly when its suffix is ".md". */
  lemma MdFilesOne(name: string)
    ensures MdFiles([name]) == if Suffix(SourcePath(name)) == ".md" then [SourcePath(name)] else []
  {
    assert [name][1..] == [];
  }

  /** `get_all_files`. */
  function GetAllFiles(fs: SourceFolder): seq<SourcePath> {
    MdFiles(fs.listing)
  }

  /**
   * `get_all_files` takes exactly the listed names that end in ".md" and are
   * more than ".md" itself, whether or not they are regular files.
   */
  lemma GetAllFilesAreMarkdown(fs: SourceFolder)
    ensures forall p :: p in GetAllFiles(fs) <==>
      p.name in fs.listing && EndsWith(p.name, ".md") && BaseName(p) != ".md"
  {
    MdFilesMembers(fs.listing);
    forall p {
      SuffixIsMd(p);
    }
  }

  /** The found files of a request, in request order (the loop of `_resolve_entries`). */
  function Found(fs: SourceFolder, names: seq<string>): (r: seq<SourcePath>)
    ensures |r| <= |names|
  {
    if names == [] then []
    else
      var rest := Found(fs, names[..|names| - 1]);
      match GetFile(fs, names[|names| - 1])
      case Some(file) => rest + [file]
      case None => rest
  }

  /** `_resolve_entries`: everything when nothing (or an empty list) is asked for. */
  function Resolve(fs: SourceFolder, filenames: Option<seq<string>>): seq<SourcePath> {
    if filenames.None? || filenames.value == [] then GetAllFiles(fs) else Found(fs, filenames.value)
  }

  /** Every found file is a file of the folder, and its name ends in ".md". */
  lemma {:induction false} FoundMembers(fs: SourceFolder, names: seq<string>)
    ensures forall p :: p in Found(fs, names) ==> p.name in fs.files && EndsWith(p.name, ".md")
  {
    if names != [] {
      FoundMembers(fs, names[..|names| - 1]);
    }
  }

  /** One more requested name: its file, when there is one, goes last. */
  lemma FoundStep(fs: SourceFolder, names: seq<string>, i: int)
    requires 0 <= i < |names|
    ensures Found(fs, names[..i + 1]) ==
      Found(fs, names[..i]) + (if GetFile(fs, names[i]).Some? then [GetFile(fs, names[i]).value] else [])
  {
    assert names[..i + 1][..i] == names[..i];
  }

  /** Found files of two requests one after the other: order and repeats are kept. */
  lemma {:induction false} FoundAppend(fs: SourceFolder, a: seq<string>, b: seq<string>)
    ensures Found(fs, a + b) == Found(fs, a) + Found(fs, b)
  {
    if b == [] {
      assert a + b == a;
    } else {
      var b' := b[..|b| - 1];
      assert (a + b)[..|a + b| - 1] == a + b';
      assert (a + b)[|a + b| - 1] == b[|b| - 1];
      FoundAppend(fs, a, b');
    }
  }

  /** One requested name gives its file, or nothing when it is missing. */
  lemma FoundOne(fs: SourceFolder, name: string)
    ensures Found(fs, [name]) == if WithMd(name) in fs.files then [SourcePath(WithMd(name))] else []
  {
    assert [name][..0] == [];
  }

  /** A missing name is skipped and changes nothing else. */
  lemma FoundSkipsMissing(fs: SourceFolder, a: seq<string>, name: string, b: seq<string>)
    requires WithMd(name) !in fs.files
    ensures Found(fs, a + [name] + b) == Found(fs, a + b)
  {
    FoundAppend(fs, a + [name], b);
    FoundAppend(fs, a, [name]);
    FoundOne(fs, name);
    FoundAppend(fs, a, b);
  }

  /** When every name is found, the result matches the request name by name. */
  lemma {:induction false} FoundAllPresent(fs: SourceFolder, names: seq<string>)
    requires forall i :: 0 <= i < |names| ==> WithMd(names[i]) in fs.files
    ensures |Found(fs, names)| == |names|
    ensures forall i :: 0 <= i < |names| ==> Found(fs, names)[i] == SourcePath(WithMd(names[i]))
  {
    if names != [] {
      var rest := names[1..];
      FoundAllPresent(fs, rest);
      FoundAppend(fs, [names[0]], rest);
      FoundOne(fs, names[0]);
      assert names == [names[0]] + rest;
      var r := Found(fs, names);
      forall i | 0 <= i < |names|
        ensures r[i] == SourcePath(WithMd(names[i]))
      {
        if i > 0 {
          assert r[i] == Found(fs, rest)[i - 1] && rest[i - 1] == names[i];
        }
      }
    }
  }

  /** What `_populate_entries` produces: the entries read, and the error that stopped it. */
  datatype Parsed = Parsed(entries: seq<Entry>, failure: Option<ParseError>)

  /**
   * `Entry.from_file` on each file in turn until one raises: the entries of
   * the files before it, then its error.
   */
  function ParseFiles(files: seq<SourcePath>, parse: SourcePath -> Result<Entry, ParseError>): (r: Parsed)
    ensures |r.entries| <= |files|
    ensures r.failure.None? ==> |r.entries| == |files|
    ensures forall i :: 0 <= i < |r.entries| ==> parse(files[i]) == Ok(r.entries[i])
    ensures r.failure.Some? ==> |r.entries| < |files| && parse(files[|r.entries|]) == Err(r.failure.value)
  {
    if files == [] then Parsed([], None)
    else
      var front, file := files[..|files| - 1], files[|files| - 1];
      var p := ParseFiles(front, parse);
      assert forall i :: 0 <= i < |front| ==> files[i] == front[i];
      if p.failure.Some? then p
      else match parse(file)
        case Ok(e) => Parsed(p.entries + [e], None)
        case Err(err) => Parsed(p.entries, Some(err))
  }

  /** Once a file fails, the files after it are never read. */
  lemma {:induction false} ParseFilesStops(files: seq<SourcePath>, j: nat, parse: SourcePath -> Result<Entry, ParseError>)
    requires j <= |files|
    requires ParseFiles(files[..j], parse).failure.Some?
    ensures ParseFiles(files, parse) == ParseFiles(files[..j], parse)
  {
    if j < |files| {
      var front := files[..|files| - 1];
      assert front[..j] == files[..j];
      ParseFilesStops(front, j, parse);
    } else {
      assert files[..j] == files;
    }
  }

  /** A file that fails stops the parse at or before it. */
  lemma {:induction false} ParseFilesFailsAt(files: seq<SourcePath>, i: nat, parse: SourcePath -> Result<Entry, ParseError>)
    requires i < |files| && parse(files[i]).Err?
    ensures ParseFiles(files, parse).failure.Some? && |ParseFiles(files, parse).entries| <= i
  {
    var front := files[..i + 1];
    assert front[..i] == files[..i] && front[|front| - 1] == files[i];
    ParseFilesStops(files, i + 1, parse);
  }

  /**
   * `get_all_files` does not ask `is_file`: a listed name such as a
   * directory "drafts.md" that cannot be read makes populating from the
   * whole folder fail.
   */
  lemma UnreadableListingFails(fs: SourceFolder, read: SourcePath -> Option<string>, tools: Collaborators, today: Date, name: string)
    requires IsValid(today)
    requires name in fs.listing && EndsWith(name, ".md") && BaseName(SourcePath(name)) != ".md"
    requires read(SourcePath(name)).None?
    ensures ParseFiles(GetAllFiles(fs), FromFile(read, tools, today)).failure.Some?
  {
    var files := GetAllFiles(fs);
    GetAllFilesAreMarkdown(fs);
    assert SourcePath(name) in files;
    var i :| 0 <= i < |files| && files[i] == SourcePath(name);
    ParseFilesFailsAt(files, i, FromFile(read, tools, today));
  }

  /** What `build_pages` renders: a page per entry, then the year-grouped index. */
  datatype Build = Build(pages: seq<string>, index: seq<YearGroup>)

  /** The page file of each entry, in entry-db order. */
  function PageNames(db: seq<Entry>): (pages: seq<string>)
    ensures |pages| == |db| && forall k :: 0 <= k < |db| ==> pages[k] == db[k].uri + ".html"
  {
    if db == [] then [] else PageNames(db[..|db| - 1]) + [db[|db| - 1].uri + ".html"]
  }

  /**
   * The first loop of `build_pages`: the `years` dict (with its keys in
   * insertion order) and the page rendered for each entry, in entry-db order.
   */
  method BucketByYear(db: seq<Entry>) returns (years: map<int, seq<Entry>>, order: seq<int>, pages: seq<string>)
    ensures years == GroupByYear(db) && order == YearsInOrder(db)
    ensures pages == PageNames(db)
  {
    years, order, pages := map[], [], [];
    for i := 0 to |db|
      invariant years == GroupByYear(db[..i])
      invariant order == YearsInOrder(db[..i])
      invariant pages == PageNames(db[..i])
    {
      var e := db[i];
      BucketStep(db, i);
      var bucket := if e.year in years then years[e.year] else [];
      if e.year !in years {
        order := order + [e.year];
      }
      years := years[e.year := bucket + [e]];
      pages := pages + [e.uri + ".html"];
    }
    assert db[..|db|] == db;
  }

  lemma BucketStep(db: seq<Entry>, i: nat)
    requires i < |db|
    ensures var years, e := GroupByYear(db[..i]), db[i];
      && PageNames(db[..i + 1]) == PageNames(db[..i]) + [e.uri + ".html"]
      && GroupByYear(db[..i + 1]) == years[e.year := (if e.year in years then years[e.year] else []) + [e]]
      && YearsInOrder(db[..i + 1]) == if e.year in years then YearsInOrder(db[..i]) else YearsInOrder(db[..i]) + [e.year]
  {
    assert db[..i + 1][..i] == db[..i];
    var years, e := GroupByYear(db[..i]), db[i];
    assert e.year in years <==> e.year in YearsInOrder(db[..i]);
  }

  /**
   * The rest of `build_pages`: the years sorted latest first, and each
   * bucket sorted by date, latest first.
   */
  method SortBuckets(db: seq<Entry>, years: map<int, seq<Entry>>, order: seq<int>) returns (index: seq<YearGroup>)
    requires years == GroupByYear(db) && order == YearsInOrder(db)
    ensures index == Aggregate(db)
  {
    var keys := SortYearsDesc(order);
    index := [];
    for j := 0 to |keys|
      invariant index == Buckets(db, keys[..j])
    {
      var y := keys[j];
      BucketFromDict(db, years, keys, j);
      index := index + [YearGroup(y, SortByDateDesc(years[y]))];
    }
    assert keys[..|keys|] == keys;
  }

  /** The bucket `SortBuckets` builds from the dict is the one `Aggregate` describes. */
  lemma BucketFromDict(db: seq<Entry>, years: map<int, seq<Entry>>, keys: seq<int>, j: nat)
    requires years == GroupByYear(db) && j < |keys|
    requires keys == SortYearsDesc(YearsInOrder(db))
    ensures keys[j] in years
    ensures Buckets(db, keys[..j + 1]) == Buckets(db, keys[..j]) + [YearGroup(keys[j], SortByDateDesc(years[keys[j]]))]
  {
    BucketsSnoc(db, keys, j);
    assert keys[j] in YearsInOrder(db);
  }

  class SaishoEngine {
    /** `entry_db`: every entry populated so far, across builds. */
    var entryDb: seq<Entry>

    constructor()
      ensures entryDb == []
    {
      entryDb := [];
    }

    /** `_resolve_entries`. */
    method ResolveEntries(fs: SourceFolder, filenames: Option<seq<string>>) returns (paths: seq<SourcePath>)
      ensures paths == Resolve(fs, filenames)
    {
      if filenames.None? || filenames.value == [] {
        return GetAllFiles(fs);
      }
      var names := filenames.value;
      paths := [];
      for i := 0 to |names|
        invariant paths == Found(fs, names[..i])
      {
        FoundStep(fs, names, i);
        var file := GetFile(fs, names[i]);
        if file.Some? {
          paths := paths + [file.value];
        }
      }
      assert names[..|names|] == names;
    }

    /**
     * `_populate_entries`, with `parse` standing for `Entry.from_file`:
     * appends the entry of each file in order and
     * answers the new length of the entry db; a file whose date does not
     * parse raises, leaving the entries of the files before it appended.
     */
    method PopulateEntries(files: seq<SourcePath>, parse: SourcePath -> Result<Entry, ParseError>)
      returns (r: Result<nat, ParseError>)
      modifies this
      ensures var parsed := ParseFiles(files, parse);
        && entryDb == old(entryDb) + parsed.entries
        && r == if parsed.failure.None? then Ok(|entryDb|) else Err(parsed.failure.value)
    {
      var i := 0;
      while i < |files|
        invariant 0 <= i <= |files|
        invariant ParseFiles(files[..i], parse).failure.None?
        invariant entryDb == old(entryDb) + ParseFiles(files[..i], parse).entries
      {
        assert files[..i + 1][..i] == files[..i];
        match parse(files[i])
        case Err(err) =>
          ParseFilesStops(files, i + 1, parse);
          return Err(err);
        case Ok(e) =>
          entryDb := entryDb + [e];
        i := i + 1;
      }
      assert files[..i] == files;
      return Ok(|entryDb|);
    }

    /**
     * `build_pages`: resolves and populates, then buckets the whole entry db
     * by year while rendering each entry's page, orders the years latest
     * first and sorts each bucket by date, and renders the index.
     */
    method BuildPages(fs: SourceFolder, filenames: Option<seq<string>>, read: SourcePath -> Option<string>,
                      tools: Collaborators, today: Date)
      returns (r: Result<Build, ParseError>)
      requires IsValid(today)
      modifies this
      ensures var parsed := ParseFiles(Resolve(fs, filenames), FromFile(read, tools, today));
        && entryDb == old(entryDb) + parsed.entries
        && (parsed.failure.Some? ==> r == Err(parsed.failure.value))
        && (parsed.failure.None? ==> r.Ok? && r.value.index == Aggregate(entryDb))
      ensures r.Ok? ==>
        && |r.value.pages| == |entryDb| + 1 && r.value.pages[|entryDb|] == "index.html"
        && (forall i :: 0 <= i < |entryDb| ==> r.value.pages[i] == entryDb[i].uri + ".html")
    {
      var files := ResolveEntries(fs, filenames);
      var count := PopulateEntries(files, FromFile(read, tools, today));
      if count.Err? {
        return Err(count.error);
      }
      var years, order, pages := BucketByYear(entryDb);
      var index := SortBuckets(entryDb, years, order);
      return Ok(Build(pages + ["index.html"], index));
    }
  }
}

=== FILE: Entries.dfy ===
/**
 * One source document turned into an entry: the page kinds (`PageTypes`),
 * the ordinal day suffix (`Tools.date_suffix`), the parts of a `Path` the
 * entry uses, and the field rules of `Entry.from_text`.
 *
 * The markdown converter and `slugify` are library code: they are the two
 * functions of `Collaborators`, about which nothing is assumed.
 */
module Entries {
  import opened Wrappers
  import opened Text
  import opened Dates

  /** `PageTypes`: the kind of page an entry is. */
  datatype PageType = EntryKind | PageKind | ProjectKind

  /** The value of each `PageTypes` member; looking the value up gives the member back. */
  function PageTypeValue(t: PageType): (v: string)
    ensures PageTypeOf(v) == t
  {
    match t
    case EntryKind => "entry"
    case PageKind => "page"
    case ProjectKind => "project"
  }

  /**
   * `PageTypes(value)`: the member whose value it is; `_missing_` answers
   * ENTRY for every other value.
   */
  function PageTypeOf(value: string): (t: PageType)
    ensures t == PageKind <==> value == "page"
    ensures t == ProjectKind <==> value == "project"
    ensures t == EntryKind <==> value != "page" && value != "project"
  {
    if value == "page" then PageKind
    else if value == "project" then ProjectKind
    else EntryKind
  }

  /** The lookup table of `Tools.date_suffix`; days not in it get "th". */
  const SuffixTable: map<int, string> :=
    map[1 := "st", 2 := "nd", 3 := "rd", 21 := "st", 22 := "nd", 23 := "rd", 31 := "st"]

  /** `Tools.date_suffix(day)`: the day in decimal followed by its suffix. */
  function DateSuffix(day: int): (s: string)
    ensures |s| == |IntToDecimal(day)| + 2 && s[..|s| - 2] == IntToDecimal(day)
    ensures s[|s| - 2..] == "st" <==> day == 1 || day == 21 || day == 31
    ensures s[|s| - 2..] == "nd" <==> day == 2 || day == 22
    ensures s[|s| - 2..] == "rd" <==> day == 3 || day == 23
    ensures s[|s| - 2..] == "th" <==> day !in SuffixTable
  {
    IntToDecimal(day) + (if day in SuffixTable then SuffixTable[day] else "th")
  }

  /** The English ordinal suffix, written independently of the table: 11th to 19th, else by the last digit. */
  function EnglishOrdinalSuffix(n: nat): string {
    if n % 100 / 10 == 1 then "th"
    else if n % 10 == 1 then "st"
    else if n % 10 == 2 then "nd"
    else if n % 10 == 3 then "rd"
    else "th"
  }

  /** For every day of a month the table agrees with the English rule, 11, 12 and 13 included. */
  lemma DateSuffixIsEnglishOrdinal(day: int)
    requires 1 <= day <= 31
    ensures DateSuffix(day) == NatToDecimal(day) + EnglishOrdinalSuffix(day)
  {
    TableIsEnglishOrdinal(day);
  }

  lemma TableIsEnglishOrdinal(day: int)
    requires 1 <= day <= 31
    ensures (if day in SuffixTable then SuffixTable[day] else "th") == EnglishOrdinalSuffix(day)
  {
    if day in SuffixTable {
      assert day in {1, 2, 3, 21, 22, 23, 31};
    } else {
      assert day % 100 / 10 == 1 || day % 10 !in {1, 2, 3};
    }
  }

  /** Beyond 31 the table is not the English rule: 41 gets "th". */
  lemma DateSuffixStopsAtThirtyOne()
    ensures DateSuffix(41)[2..] == "th" && EnglishOrdinalSuffix(41) == "st"
  {
  }

  /** A path under the source folder, by the name it was looked up with. */
  datatype SourcePath = SourcePath(name: string)

  /** `Path.name`: the last component. */
  function BaseName(p: SourcePath): string {
    AfterLast(p.name, '/')
  }

  /**
   * The suffix of a file name: from its last dot on, when that dot is
   * neither the first nor the last character; otherwise empty.
   */
  function NameSuffix(base: string): (r: string)
    ensures r != [] ==> r[0] == '.' && |r| < |base| && EndsWith(base, r)
  {
    var i := LastIndex(base, '.');
    if 0 < i < |base| - 1 then base[i..] else ""
  }

  /**
   * A name has a suffix exactly when it does not end in a dot and holds a
   * dot after its first character; the suffix is then everything from the
   * last dot on, so it holds no further dot.
   */
  lemma NameSuffixExactly(base: string)
    ensures NameSuffix(base) != [] <==>
      base != [] && base[|base| - 1] != '.' && exists i :: 0 < i < |base| && base[i] == '.'
    ensures NameSuffix(base) != [] ==>
      NameSuffix(base) == base[LastIndex(base, '.')..] && '.' !in NameSuffix(base)[1..]
  {
    var i := LastIndex(base, '.');
    if NameSuffix(base) != [] {
      assert base[i] == '.';
      var r := NameSuffix(base);
      assert forall k :: 0 <= k < |r| - 1 ==> r[1..][k] == base[i + 1 + k];
    }
    if base != [] && base[|base| - 1] != '.' && exists j :: 0 < j < |base| && base[j] == '.' {
      var j :| 0 < j < |base| && base[j] == '.';
      assert j <= i;
    }
  }

  /** The stem of a file name: what precedes its suffix. */
  function NameStem(base: string): (r: string)
    ensures r + NameSuffix(base) == base
  {
    var i := LastIndex(base, '.');
    if 0 < i < |base| - 1 then base[..i] else base
  }

  /** `Path.suffix`. */
  function Suffix(p: SourcePath): string {
    NameSuffix(BaseName(p))
  }

  /** `Path.stem`. */
  function Stem(p: SourcePath): string {
    NameStem(BaseName(p))
  }

  /** A name has suffix ".md" exactly when it ends in ".md" and is more than ".md" itself. */
  lemma SuffixIsMd(p: SourcePath)
    ensures Suffix(p) == ".md" <==> EndsWith(p.name, ".md") && BaseName(p) != ".md"
  {
    var base := BaseName(p);
    if EndsWith(p.name, ".md") && base != ".md" {
      BaseNameKeepsMd(p);
      MdHasSuffix(base);
    }
    if Suffix(p) == ".md" {
      BaseNameEndsName(p);
      EndsWithTransitive(p.name, base, ".md");
    }
  }

  lemma BaseNameEndsName(p: SourcePath)
    ensures EndsWith(p.name, BaseName(p))
  {
  }

  lemma BaseNameKeepsMd(p: SourcePath)
    requires EndsWith(p.name, ".md")
    ensures EndsWith(BaseName(p), ".md")
  {
    assert '/' !in ".md";
    AfterLastKeepsTail(p.name, '/', ".md");
  }

  lemma MdHasSuffix(base: string)
    requires EndsWith(base, ".md") && base != ".md"
    ensures NameSuffix(base) == ".md"
  {
    assert base[|base| - 3] == '.';
  }

  /** What the markdown converter returns: the HTML body and the metadata block. */
  datatype Converted = Converted(html: string, meta: map<string, seq<string>>)

  /** The library functions `from_text` calls. */
  datatype Collaborators = Collaborators(convert: string -> Converted, slugify: string -> string)

  /** `Entry`; `pageType` keeps the raw `type` text, which `from_text` never maps to `PageTypes`. */
  datatype Entry = Entry(
    title: string,
    content: string,
    tags: seq<string>,
    date: Date,
    description: string,
    displayDate: string,
    year: int,
    uri: string,
    file: SourcePath,
    pageType: string)

  /**
   * The exceptions that stop `from_file`: `read_text` failing on the file
   * (a directory, an unreadable file, bytes that are not UTF-8), or
   * `strptime` rejecting the date text.
   */
  datatype ParseError = Unreadable(file: SourcePath) | MalformedDate(text: string)

  /** `"".join(meta.get(key, default))`: the parts of a metadata value glued together. */
  function MetaText(meta: map<string, seq<string>>, key: string, default: string): string {
    if key in meta then Concat(meta[key]) else default
  }

  /** `[tag.strip() for tag in raw.split(",")]`. */
  function SplitTags(raw: string): (tags: seq<string>)
    ensures |tags| == Count(raw, ',') + 1
  {
    var pieces := Split(raw, ',');
    seq(|pieces|, k requires 0 <= k < |pieces| => Strip(pieces[k]))
  }

  /** The date text `from_text` parses: the `date` field, or today as `%Y-%m-%d`. */
  function DateText(meta: map<string, seq<string>>, today: Date): string
    requires IsValid(today)
  {
    MetaText(meta, "date", FormatDate(today))
  }

  /** `"{%B} {date_suffix(day)}"`, for example "March 3rd". */
  function DisplayDate(d: Date): string
    requires IsValid(d)
  {
    MonthName(d.month) + " " + DateSuffix(d.day)
  }

  /**
   * `Entry.from_text(text, file)`, with `today` standing for `datetime.now()`.
   * It fails exactly when the date text is not `%Y-%m-%d`; otherwise the
   * entry's year and display date come from the parsed date, its content
   * from the converter and its uri from the slug of the file's stem.
   */
  function FromText(text: string, file: SourcePath, tools: Collaborators, today: Date): (r: Result<Entry, ParseError>)
    requires IsValid(today)
    ensures var dateText := DateText(tools.convert(text).meta, today);
      && (r.Err? <==> ParseDate(dateText).None?)
      && (r.Err? ==> r.error == MalformedDate(dateText))
    ensures r.Ok? ==> IsValid(r.value.date) && r.value.year == r.value.date.year
    ensures r.Ok? ==> r.value.displayDate == DisplayDate(r.value.date)
    ensures r.Ok? ==> r.value.uri == tools.slugify(Stem(file)) && r.value.file == file
    ensures r.Ok? ==> r.value.content == tools.convert(text).html
  {
    var converted := tools.convert(text);
    var meta := converted.meta;
    var pageType := MetaText(meta, "type", "entry");
    var tags := SplitTags(MetaText(meta, "tags", ""));
    var title := MetaText(meta, "title", "");
    var dateText := DateText(meta, today);
    match ParseDate(dateText)
    case None => Err(MalformedDate(dateText))
    case Some(date) =>
      Ok(Entry(
        title := title,
        content := converted.html,
        tags := tags,
        date := date,
        description := MetaText(meta, "description", ""),
        displayDate := DisplayDate(date),
        year := date.year,
        uri := tools.slugify(Stem(file)),
        file := file,
        pageType := pageType))
  }

  /**
   * `Entry.from_file`: `from_text` of the file's contents, as `read` gives
   * them; `read` gives `None` where `read_text` raises.
   */
  function FromFile(read: SourcePath -> Option<string>, tools: Collaborators, today: Date): (parse: SourcePath -> Result<Entry, ParseError>)
    requires IsValid(today)
  {
    file => if read(file).None? then Err(Unreadable(file)) else FromText(read(file).value, file, tools, today)
  }

  /**
   * `from_file` fails exactly when the file cannot be read or its date text
   * does not parse; an unreadable file fails with its own path, and a
   * readable one gives what `from_text` gives for its contents.
   */
  lemma FromFileErrors(read: SourcePath -> Option<string>, tools: Collaborators, today: Date, file: SourcePath)
    requires IsValid(today)
    ensures var r := FromFile(read, tools, today)(file);
      && (r.Err? <==> read(file).None? || ParseDate(DateText(tools.convert(read(file).value).meta, today)).None?)
      && (read(file).None? ==> r == Err(Unreadable(file)))
      && (read(file).Some? ==> r == FromText(read(file).value, file, tools, today))
  {
  }

  /**
   * Tags: the `tags` text cut at every comma, each piece stripped, in order;
   * one more tag than commas, and exactly `[""]` when the field is absent
   * or empty.
   */
  lemma FromTextTags(text: string, file: SourcePath, tools: Collaborators, today: Date)
    requires IsValid(today)
    requires FromText(text, file, tools, today).Ok?
    ensures var meta, tags := tools.convert(text).meta, FromText(text, file, tools, today).value.tags;
      var raw := MetaText(meta, "tags", "");
      && |tags| == Count(raw, ',') + 1
      && (forall k :: 0 <= k < |tags| ==> tags[k] == Strip(Split(raw, ',')[k]))
      && (raw == "" ==> tags == [""])
  {
    var raw := MetaText(tools.convert(text).meta, "tags", "");
    assert FromText(text, file, tools, today).value.tags == SplitTags(raw);
    SplitTagsPieces(raw);
  }

  lemma SplitTagsPieces(raw: string)
    ensures forall k :: 0 <= k < |SplitTags(raw)| ==> SplitTags(raw)[k] == Strip(Split(raw, ',')[k])
    ensures raw == "" ==> SplitTags(raw) == [""]
  {
    if raw == "" {
      assert Split(raw, ',') == [""];
      assert Strip("") == "";
    }
  }

  /**
   * Title, description and type are their metadata parts glued together
   * with no separator; absent, they are "", "" and "entry".
   */
  lemma FromTextTextFields(text: string, file: SourcePath, tools: Collaborators, today: Date)
    requires IsValid(today)
    requires FromText(text, file, tools, today).Ok?
    ensures var meta, e := tools.convert(text).meta, FromText(text, file, tools, today).value;
      && ("title" in meta ==> e.title == Concat(meta["title"]))
      && ("title" !in meta ==> e.title == "")
      && ("description" in meta ==> e.description == Concat(meta["description"]))
      && ("description" !in meta ==> e.description == "")
      && ("type" in meta ==> e.pageType == Concat(meta["type"]))
      && ("type" !in meta ==> e.pageType == "entry")
  {
  }

  /** Without a `date` field the entry is dated today and never fails. */
  lemma FromTextDefaultDate(text: string, file: SourcePath, tools: Collaborators, today: Date)
    requires IsValid(today)
    requires "date" !in tools.convert(text).meta
    ensures FromText(text, file, tools, today).Ok?
    ensures FromText(text, file, tools, today).value.date == today
    ensures FromText(text, file, tools, today).value.year == today.year
  {
    ParseFormatRoundTrip(today);
  }

  /** A `date` field that `strptime` reads gives that date, its year and its display date. */
  lemma FromTextGivenDate(text: string, file: SourcePath, tools: Collaborators, today: Date, d: Date)
    requires IsValid(today)
    requires "date" in tools.convert(text).meta
    requires ParseDate(Concat(tools.convert(text).meta["date"])) == Some(d)
    ensures FromText(text, file, tools, today).Ok?
    ensures var e := FromText(text, file, tools, today).value;
      e.date == d && e.year == d.year && e.displayDate == MonthName(d.month) + " " + DateSuffix(d.day)
  {
  }
}

=== FILE: Server.dfy ===
/**
 * The preview server's router, `RequestHandler._parse_request`, and what
 * `do_GET` answers with it. The output folder is described by the set of
 * names, relative to it, that exist there; the routes name a file under the
 * output folder or the folder itself.
 */
module Server {
  import opened Wrappers
  import opened Text

  /** `extensions_map`: the content type of each extension `guess_type` knows. */
  const ExtensionsMap: map<string, string> := map[
    ".html" := "text/html",
    ".css" := "text/css",
    ".jpg" := "image/jpeg",
    ".jpeg" := "image/jpeg",
    ".ico" := "image/vnd.microsoft.icon",
    "" := "application/octet-stream"]

  /** The text after the last dot of the request path (`path.split(".")[-1]`). */
  function Extension(path: string): string {
    AfterLast(path, '.')
  }

  /** `extensions_map.get(f".{ext}")` is truthy. */
  predicate KnownExtension(ext: string) {
    "." + ext in ExtensionsMap
  }

  /** Exactly five extensions are known; the empty key never matches. */
  lemma KnownExtensions(ext: string)
    ensures KnownExtension(ext) <==> ext in {"html", "css", "jpg", "jpeg", "ico"}
  {
    var key := "." + ext;
    assert key[1..] == ext;
    if key == ".html" {
      assert ext == ".html"[1..] == "html";
    } else if key == ".css" {
      assert ext == ".css"[1..] == "css";
    } else if key == ".jpg" {
      assert ext == ".jpg"[1..] == "jpg";
    } else if key == ".jpeg" {
      assert ext == ".jpeg"[1..] == "jpeg";
    } else if key == ".ico" {
      assert ext == ".ico"[1..] == "ico";
    } else {
      assert key != "";
      assert ext != "html" && ext != "css" && ext != "jpg" && ext != "jpeg" && ext != "ico";
    }
  }

  predicate IsSlash(c: char) {
    c == '/'
  }

  /** The request path with ".html" added unless its extension is known. */
  function WithHtml(path: string): (full: string)
    ensures KnownExtension(Extension(path)) ==> full == path
    ensures !KnownExtension(Extension(path)) ==> full == path + ".html"
  {
    if KnownExtension(Extension(path)) then path else path + ".html"
  }

  /** The name looked up under the output folder: `WithHtml` with every leading slash removed. */
  function ServedName(path: string): string {
    TrimStart(WithHtml(path), IsSlash)
  }

  /**
   * The extension `posixpath.splitext` finds: from the last dot of the last
   * component on, unless that component is only dots up to there.
   */
  function SplitExt(p: string): (ext: string)
    ensures ext == [] || (ext[0] == '.' && EndsWith(p, ext) && '.' !in ext[1..] && '/' !in ext)
  {
    var sepIndex := LastIndex(p, '/');
    var dotIndex := LastIndex(p, '.');
    if dotIndex > sepIndex && exists k :: sepIndex < k < dotIndex && p[k] != '.' then
      var ext := p[dotIndex..];
      assert forall j :: 0 <= j < |ext| ==> ext[j] == p[dotIndex + j];
      ext
    else ""
  }

  /**
   * The last component of `p` holds a dot after some character other than a
   * dot: the case in which `splitext` finds an extension.
   */
  predicate HasExtension(p: string) {
    exists k, i :: 0 <= k < i < |p| && p[k] != '.' && p[i] == '.' && forall j :: k <= j < |p| ==> p[j] != '/'
  }

  /**
   * `splitext` finds an extension exactly when the last component holds a dot
   * after a character other than a dot, and the extension is then the
   * unique dot-started ending with no further dot: everything from the last
   * dot on.
   */
  lemma SplitExtExactly(p: string)
    ensures SplitExt(p) != [] <==> HasExtension(p)
    ensures SplitExt(p) != [] ==> SplitExt(p) == p[LastIndex(p, '.')..]
  {
    var sep, dot := LastIndex(p, '/'), LastIndex(p, '.');
    if SplitExt(p) != [] {
      var k :| sep < k < dot && p[k] != '.';
      assert forall j :: k <= j < |p| ==> p[j] != '/';
      assert 0 <= k < dot < |p| && p[k] != '.' && p[dot] == '.';
    }
    if HasExtension(p) {
      var k, i :| 0 <= k < i < |p| && p[k] != '.' && p[i] == '.' && forall j :: k <= j < |p| ==> p[j] != '/';
      assert sep < k;
      assert i <= dot;
      assert sep < k < dot && p[k] != '.';
    }
  }

  /**
   * `guess_type` as far as `extensions_map` decides it; `None` where the
   * answer would come from the lower-cased extension or the `mimetypes`
   * registry.
   */
  function GuessType(p: string): (r: Option<string>)
    ensures r.Some? <==> SplitExt(p) in ExtensionsMap
    ensures r.Some? ==> r.value == ExtensionsMap[SplitExt(p)] && r.value in ExtensionsMap.Values
  {
    var ext := SplitExt(p);
    if ext in ExtensionsMap then Some(ExtensionsMap[ext]) else None
  }

  /** What a request is answered from: the output folder itself, or a name under it. */
  datatype ServedPath = OutputFolder | UnderOutput(name: string)

  /** The triple `_parse_request` returns. */
  datatype Route = Route(code: int, path: ServedPath, contentType: string)

  /**
   * The name served for a request is never one `guess_type` has to hand to
   * the fallbacks: its extension is one of the table's.
   */
  lemma ServedNameHasTableType(path: string)
    ensures GuessType(ServedName(path)).Some?
  {
    if !KnownExtension(Extension(path)) {
      HtmlServedType(path);
    } else if '.' in path {
      KnownServedType(path);
    } else {
      NoDotNoExtension(WithHtml(path), ServedName(path));
    }
  }

  lemma HtmlServedType(path: string)
    requires !KnownExtension(Extension(path))
    ensures SplitExt(ServedName(path)) in ExtensionsMap
  {
    assert WithHtml(path) == path + ".html";
    HtmlAppended(path);
    ServedExtension(WithHtml(path), ServedName(path), ".html");
  }

  lemma KnownServedType(path: string)
    requires KnownExtension(Extension(path)) && '.' in path
    ensures SplitExt(ServedName(path)) in ExtensionsMap
  {
    var e := "." + Extension(path);
    DotBeforeExtension(path);
    assert e[1..] == Extension(path);
    ServedExtension(WithHtml(path), ServedName(path), e);
  }

  lemma HtmlAppended(path: string)
    ensures EndsWith(path + ".html", ".html") && ".html"[0] == '.' && '.' !in ".html"[1..]
  {
    assert (path + ".html")[|path|..] == ".html";
    assert ".html"[1..] == "html";
  }

  /**
   * Whatever leading slashes are removed from a name ending in a dot and an
   * extension, `splitext` finds that extension or none.
   */
  lemma ServedExtension(full: string, rel: string, e: string)
    requires EndsWith(full, e) && e != [] && e[0] == '.' && '.' !in e[1..]
    requires rel == TrimStart(full, IsSlash)
    ensures SplitExt(rel) == "" || SplitExt(rel) == e
  {
    var ext := SplitExt(rel);
    if ext != [] {
      EndsWithTransitive(full, rel, ext);
      DotTails(full, ext, e);
    }
  }

  /** A name without a dot has no extension however its slashes are trimmed. */
  lemma NoDotNoExtension(full: string, rel: string)
    requires '.' !in full && rel == TrimStart(full, IsSlash)
    ensures SplitExt(rel) == ""
  {
  }

  /** A path with a dot ends in a dot followed by its `Extension`. */
  lemma DotBeforeExtension(path: string)
    requires '.' in path
    ensures EndsWith(path, "." + Extension(path))
  {
    var tail := Extension(path);
    assert |tail| < |path|;
    assert path[|path| - |tail| - 1..] == "." + tail;
  }

  /** Two dot-started tails of one string, neither with a further dot, are the same. */
  lemma DotTails(s: string, a: string, b: string)
    requires a != [] && b != [] && a[0] == '.' && b[0] == '.'
    requires EndsWith(s, a) && EndsWith(s, b)
    requires '.' !in a[1..] && '.' !in b[1..]
    ensures a == b
  {
  }

  /** `_parse_request`, with `existing` the names under the output folder that exist. */
  function ParseRequest(path: string, existing: set<string>): (route: Route)
    ensures route.code in {200, 301, 404}
    ensures route.code == 404 ==> route.path == OutputFolder && route.contentType == "text/html"
    ensures route.code == 301 ==> route.path == OutputFolder && route.contentType == "application/octet-stream"
    ensures route.code == 301 <==> path != "/" && EndsWith(path, "/")
    ensures route.code == 404 <==>
      || (path == "/" && "index.html" !in existing)
      || (!EndsWith(path, "/") && ServedName(path) !in existing)
    ensures route.code == 200 ==>
      && route.path.UnderOutput? && route.path.name in existing
      && SplitExt(route.path.name) in ExtensionsMap
      && route.contentType == ExtensionsMap[SplitExt(route.path.name)]
  {
    if path == "/" then
      if "index.html" in existing then
        HtmlEntry();
        ExtTail("index.html", ".html");
        Route(200, UnderOutput("index.html"), "text/html")
      else Route(404, OutputFolder, "text/html")
    else if EndsWith(path, "/") then Route(301, OutputFolder, "application/octet-stream")
    else
      var rel := ServedName(path);
      if rel in existing then
        ServedNameHasTableType(path);
        Route(200, UnderOutput(rel), GuessType(rel).value)
      else Route(404, OutputFolder, "text/html")
  }

  /** The root is the index page when there is one, and otherwise not found. */
  lemma RootRequest(existing: set<string>)
    ensures ParseRequest("/", existing) ==
      if "index.html" in existing then Route(200, UnderOutput("index.html"), "text/html")
      else Route(404, OutputFolder, "text/html")
  {
  }

  /** Any other path ending in a slash is redirected, whatever exists. */
  lemma TrailingSlashRedirects(path: string, existing: set<string>, other: set<string>)
    requires path != "/" && EndsWith(path, "/")
    ensures ParseRequest(path, existing).code == 301
    ensures ParseRequest(path, existing) == ParseRequest(path, other)
  {
  }

  /**
   * A request not ending in a slash whose served name does not exist is not
   * found, whatever else exists: "/missing-page" is one.
   */
  lemma MissingPageNotFound(path: string, existing: set<string>)
    requires !EndsWith(path, "/") && ServedName(path) !in existing
    ensures ParseRequest(path, existing) == Route(404, OutputFolder, "text/html")
    ensures ParseRequest("/missing-page", {}) == Route(404, OutputFolder, "text/html")
  {
    assert !EndsWith("/missing-page", "/") by {
      NotSlashEnded("/missing-page");
    }
  }

  /**
   * A request answers 200 exactly when the name it maps to exists: the
   * index for "/", the served name for a path not ending in a slash.
   */
  lemma FoundExactlyWhenExists(path: string, existing: set<string>)
    ensures ParseRequest(path, existing).code == 200 <==>
      || (path == "/" && "index.html" in existing)
      || (!EndsWith(path, "/") && ServedName(path) in existing)
    ensures ParseRequest(path, existing).code == 200 && path != "/" ==>
      ParseRequest(path, existing).path == UnderOutput(ServedName(path))
  {
  }

  /**
   * The served name is the request with its leading slashes removed and
   * ".html" added unless the extension is known: it starts with no slash
   * and the request is slashes followed by it (less the added ".html").
   */
  lemma ServedNameShape(path: string)
    ensures var rel, full := ServedName(path), WithHtml(path);
      && (rel == [] || rel[0] != '/')
      && EndsWith(full, rel)
      && forall k :: 0 <= k < |full| - |rel| ==> full[k] == '/'
  {
    TrimmedSlashes(WithHtml(path), ServedName(path));
  }

  lemma TrimmedSlashes(full: string, rel: string)
    requires rel == TrimStart(full, IsSlash)
    ensures (rel == [] || rel[0] != '/') && EndsWith(full, rel)
    ensures forall k :: 0 <= k < |full| - |rel| ==> full[k] == '/'
  {
    assert forall k :: 0 <= k < |full| - |rel| ==> IsSlash(full[k]);
  }

  /** A name with exactly one leading slash loses just that slash. */
  lemma OneSlashTrimmed(full: string)
    requires |full| >= 2 && full[0] == '/' && full[1] != '/'
    ensures TrimStart(full, IsSlash) == full[1..]
  {
    var rel := TrimStart(full, IsSlash);
    TrimmedSlashes(full, rel);
    assert |full| - |rel| == 1;
  }

  /** A path with no dot that starts with a slash always gets ".html". */
  lemma NoDotGetsHtml(path: string)
    requires '.' !in path && path != [] && path[0] == '/'
    ensures WithHtml(path) == path + ".html"
  {
    assert Extension(path) == path by {
      assert |Extension(path)| == |path|;
    }
    if KnownExtension(path) {
      KnownExtensions(path);
    }
  }

  /**
   * Without its leading slash a bare word equal to a known extension is not
   * given ".html": "css" is looked up as is, and served with the table's
   * default type.
   */
  lemma BareExtensionWordKeptAsIs(w: string, existing: set<string>)
    requires w in {"html", "css", "jpg", "jpeg", "ico"}
    ensures ServedName(w) == w
    ensures w in existing ==> ParseRequest(w, existing) == Route(200, UnderOutput(w), "application/octet-stream")
  {
    ExtensionWords(w);
    KnownExtensions(w);
    BareWordServed(w, existing);
  }

  lemma BareWordServed(w: string, existing: set<string>)
    requires w != [] && '.' !in w && '/' !in w && KnownExtension(w)
    ensures ServedName(w) == w
    ensures w in existing ==> ParseRequest(w, existing) == Route(200, UnderOutput(w), "application/octet-stream")
  {
    BareWordName(w);
    if w in existing {
      assert SplitExt(w) == "" by {
        assert LastIndex(w, '.') == -1;
      }
      DefaultEntry();
      assert w != "/" && !EndsWith(w, "/") by {
        assert w[|w| - 1] in w;
      }
      ServedWithType(w, existing, "");
    }
  }

  lemma BareWordName(w: string)
    requires w != [] && '.' !in w && '/' !in w && KnownExtension(w)
    ensures ServedName(w) == w
  {
    assert WithHtml(w) == w by {
      assert Extension(w) == w;
    }
    assert w[0] != '/';
  }

  lemma DefaultEntry()
    ensures "" in ExtensionsMap && ExtensionsMap[""] == "application/octet-stream"
  {
  }

  /**
   * A page requested without an extension is served as HTML: its name ends
   * in ".html" after a component that is not only dots.
   */
  lemma PagesServedAsHtml(path: string, existing: set<string>)
    requires '.' !in path && path != [] && path[0] == '/' && !EndsWith(path, "/")
    requires ServedName(path) in existing
    ensures ParseRequest(path, existing) == Route(200, UnderOutput(ServedName(path)), "text/html")
  {
    PageNameType(path);
    assert ExtensionsMap[".html"] == "text/html" by {
      HtmlEntry();
    }
    assert path != "/" by {
      assert '.' !in path;
    }
    ServedWithType(path, existing, ".html");
  }

  lemma PageNameType(path: string)
    requires '.' !in path && path != [] && path[0] == '/' && !EndsWith(path, "/")
    ensures SplitExt(ServedName(path)) == ".html"
  {
    var full, rel := WithHtml(path), ServedName(path);
    assert full == path + ".html" by {
      NoDotGetsHtml(path);
    }
    assert EndsWith(full, rel) && forall k :: 0 <= k < |full| - |rel| ==> full[k] == '/' by {
      ServedNameShape(path);
    }
    assert path[|path| - 1] != '/' by {
      assert path[|path| - 1..] == [path[|path| - 1]];
    }
    HtmlExtensionShape();
    NameType(path, ".html", full, rel);
  }

  /**
   * A request whose extension the table does not know, ending in neither a
   * dot nor a slash, is served from its ".html" name, when that exists, as
   * text/html.
   */
  lemma UnknownExtensionServedAsHtml(path: string, existing: set<string>)
    requires path != [] && path[|path| - 1] != '.' && path[|path| - 1] != '/'
    requires !KnownExtension(Extension(path)) && ServedName(path) in existing
    ensures ParseRequest(path, existing) == Route(200, UnderOutput(ServedName(path)), "text/html")
  {
    UnknownNameType(path);
    HtmlEntry();
    NotSlashEnded(path);
    ServedWithType(path, existing, ".html");
  }

  lemma NotSlashEnded(path: string)
    requires path != [] && path[|path| - 1] != '/'
    ensures path != "/" && !EndsWith(path, "/")
  {
    assert path[|path| - 1..] == [path[|path| - 1]];
  }

  lemma UnknownNameType(path: string)
    requires path != [] && path[|path| - 1] != '.' && path[|path| - 1] != '/'
    requires !KnownExtension(Extension(path))
    ensures SplitExt(ServedName(path)) == ".html"
  {
    var full, rel := WithHtml(path), ServedName(path);
    assert EndsWith(full, rel) && forall k :: 0 <= k < |full| - |rel| ==> full[k] == '/' by {
      ServedNameShape(path);
    }
    HtmlExtensionShape();
    NameType(path, ".html", full, rel);
  }

  /** For example, "/notes.v2" is served from "notes.v2.html" as text/html. */
  lemma DottedPageServedAsHtml()
    ensures ParseRequest("/notes.v2", {"notes.v2.html"}) == Route(200, UnderOutput("notes.v2.html"), "text/html")
  {
    var path := "/notes.v2";
    assert Extension(path) == "v2" by {
      assert path == "/notes" + ['.'] + "v2";
      AfterLastOfTail("/notes", '.', "v2");
    }
    assert !KnownExtension("v2") by {
      KnownExtensions("v2");
    }
    assert WithHtml(path) == "/notes.v2.html";
    assert ServedName(path) == "notes.v2.html" by {
      OneSlashTrimmed("/notes.v2.html");
    }
    UnknownExtensionServedAsHtml(path, {"notes.v2.html"});
  }

  /**
   * "/.css" keeps its known extension, but `splitext` treats the leading dot
   * of ".css" as part of the name, so it is served as
   * application/octet-stream.
   */
  lemma HiddenNameServedAsDefault()
    ensures ParseRequest("/.css", {".css"}) == Route(200, UnderOutput(".css"), "application/octet-stream")
  {
    var path := "/.css";
    assert Extension(path) == "css" by {
      assert path == "/" + ['.'] + "css";
      AfterLastOfTail("/", '.', "css");
    }
    assert KnownExtension("css") by {
      KnownExtensions("css");
    }
    assert ServedName(path) == ".css" by {
      OneSlashTrimmed(path);
    }
    assert SplitExt(".css") == "" by {
      assert ".css"[1..] == "css";
      DotNameNoExtension(".css");
    }
    NotSlashEnded(path);
    DefaultEntry();
    ServedWithType(path, {".css"}, "");
  }

  /** A name that starts with its only dot, such as ".css", has no extension. */
  lemma DotNameNoExtension(name: string)
    requires name != [] && name[0] == '.' && '.' !in name[1..]
    ensures SplitExt(name) == ""
  {
    assert forall k :: 0 < k < |name| ==> name[k] != '.' by {
      forall k | 0 < k < |name|
        ensures name[k] != '.'
      {
        assert name[k] == name[1..][k - 1];
      }
    }
    LastIndexAt(name, '.', 0);
  }

  lemma HtmlExtensionShape()
    ensures ".html" != [] && ".html"[0] == '.' && '.' !in ".html"[1..] && '/' !in ".html"
  {
    assert ".html"[1..] == "html";
  }

  lemma HtmlEntry()
    ensures ".html" in ExtensionsMap && ExtensionsMap[".html"] == "text/html"
  {
  }

  /**
   * `splitext` finds the extension `e` in a name made of a last component
   * that does not end in a dot or a slash, then `e`, with slashes trimmed
   * from the front.
   */
  lemma NameType(p: string, e: string, full: string, rel: string)
    requires p != [] && p[|p| - 1] != '.' && p[|p| - 1] != '/'
    requires e != [] && e[0] == '.' && '.' !in e[1..] && '/' !in e
    requires full == p + e
    requires EndsWith(full, rel) && forall k :: 0 <= k < |full| - |rel| ==> full[k] == '/'
    ensures SplitExt(rel) == e
  {
    assert |rel| > |e| && rel[|rel| - |e| - 1] == p[|p| - 1] && rel[|rel| - |e|..] == e by {
      assert full[|p| - 1] == p[|p| - 1];
      assert |full| - |rel| <= |p| - 1;
      assert rel[|rel| - |e| - 1] == full[|p| - 1];
      assert rel[|rel| - |e|..] == full[|p|..] == e;
    }
    ExtTail(rel, e);
  }

  /** A name ending in `e` after a character other than a dot or a slash has extension `e`. */
  lemma ExtTail(rel: string, e: string)
    requires e != [] && e[0] == '.' && '.' !in e[1..] && '/' !in e
    requires |rel| > |e| && rel[|rel| - |e| - 1] != '.' && rel[|rel| - |e| - 1] != '/'
    requires rel[|rel| - |e|..] == e
    ensures SplitExt(rel) == e
  {
    var i := |rel| - |e|;
    var ext := rel[i..];
    assert ext == e;
    assert forall j :: 1 <= j < |e| ==> e[j] != '.' by {
      forall j | 1 <= j < |e|
        ensures e[j] != '.'
      {
        assert e[j] == e[1..][j - 1];
      }
    }
    assert forall k :: i < k < |rel| ==> rel[k] != '.' by {
      forall k | i < k < |rel|
        ensures rel[k] != '.'
      {
        assert rel[k] == ext[k - i];
      }
    }
    assert forall k :: i <= k < |rel| ==> rel[k] != '/' by {
      forall k | i <= k < |rel|
        ensures rel[k] != '/'
      {
        assert rel[k] == ext[k - i];
      }
    }
    LastIndexAt(rel, '.', i);
    assert LastIndex(rel, '/') < i - 1;
    assert rel[i - 1] != '.';
  }

  /**
   * A file requested with a known extension after a name that does not end
   * in a dot is served, when it exists, with the table's type for that
   * extension: ".css" as text/css, ".jpg" and ".jpeg" as image/jpeg, ".ico"
   * as image/vnd.microsoft.icon.
   */
  lemma KnownTypeServed(stem: string, e: string, existing: set<string>)
    requires stem != [] && stem[0] == '/' && stem[|stem| - 1] != '.' && stem[|stem| - 1] != '/'
    requires e in {"html", "css", "jpg", "jpeg", "ico"}
    requires TrimStart(stem + "." + e, IsSlash) in existing
    ensures "." + e in ExtensionsMap
    ensures ParseRequest(stem + "." + e, existing) ==
      Route(200, UnderOutput(TrimStart(stem + "." + e, IsSlash)), ExtensionsMap["." + e])
  {
    ExtensionWords(e);
    KnownExtensions(e);
    KnownExtensionServed(stem, e, existing);
  }

  lemma KnownExtensionServed(stem: string, e: string, existing: set<string>)
    requires stem != [] && stem[0] == '/' && stem[|stem| - 1] != '.' && stem[|stem| - 1] != '/'
    requires e != [] && '.' !in e && '/' !in e && KnownExtension(e)
    requires TrimStart(stem + "." + e, IsSlash) in existing
    ensures ParseRequest(stem + "." + e, existing) ==
      Route(200, UnderOutput(TrimStart(stem + "." + e, IsSlash)), ExtensionsMap["." + e])
  {
    var path := stem + "." + e;
    KnownExtensionKept(stem, e);
    KnownExtensionFound(stem, e);
    assert path != "/" && !EndsWith(path, "/") by {
      assert path[|path| - 1] == e[|e| - 1];
    }
    ServedWithType(path, existing, "." + e);
  }

  lemma KnownExtensionKept(stem: string, e: string)
    requires '.' !in e && KnownExtension(e)
    ensures WithHtml(stem + "." + e) == stem + "." + e
  {
    assert stem + "." + e == stem + ['.'] + e;
    AfterLastOfTail(stem, '.', e);
  }

  lemma KnownExtensionFound(stem: string, e: string)
    requires stem != [] && stem[|stem| - 1] != '.' && stem[|stem| - 1] != '/'
    requires e != [] && '.' !in e && '/' !in e
    requires WithHtml(stem + "." + e) == stem + "." + e
    ensures SplitExt(ServedName(stem + "." + e)) == "." + e
  {
    var path, d := stem + "." + e, "." + e;
    assert path == stem + d && d[1..] == e;
    TrimmedSlashes(path, ServedName(path));
    NameType(stem, d, path, ServedName(path));
  }

  /** The known extensions are nonempty words without a dot or a slash. */
  lemma ExtensionWords(e: string)
    requires e in {"html", "css", "jpg", "jpeg", "ico"}
    ensures e != [] && '.' !in e && '/' !in e
  {
    if e == "html" {
    } else if e == "css" {
    } else if e == "jpg" {
    } else if e == "jpeg" {
    } else {
      assert e == "ico";
    }
  }

  /** A request answered from a name with a table extension gets that extension's type. */
  lemma ServedWithType(path: string, existing: set<string>, d: string)
    requires path != "/" && !EndsWith(path, "/") && ServedName(path) in existing
    requires SplitExt(ServedName(path)) == d && d in ExtensionsMap
    ensures ParseRequest(path, existing) == Route(200, UnderOutput(ServedName(path)), ExtensionsMap[d])
  {
  }

  /** For example, "/style.css" is served as text/css when "style.css" exists. */
  lemma StylesheetServedAsCss()
    ensures ParseRequest("/style.css", {"style.css"}) == Route(200, UnderOutput("style.css"), "text/css")
  {
    var path, d := "/style" + "." + "css", "." + "css";
    assert path == "/style.css" && d == ".css";
    assert TrimStart(path, IsSlash) == "style.css";
    assert ExtensionsMap[d] == "text/css" by {
      CssEntry();
    }
    KnownTypeServed("/style", "css", {"style.css"});
  }

  /** And "/logo.jpg" as image/jpeg when "logo.jpg" exists. */
  lemma LogoServedAsJpeg()
    ensures ParseRequest("/logo.jpg", {"logo.jpg"}) == Route(200, UnderOutput("logo.jpg"), "image/jpeg")
  {
    var path, d := "/logo" + "." + "jpg", "." + "jpg";
    assert path == "/logo.jpg" && d == ".jpg";
    assert TrimStart(path, IsSlash) == "logo.jpg";
    assert ExtensionsMap[d] == "image/jpeg" by {
      JpgEntry();
    }
    KnownTypeServed("/logo", "jpg", {"logo.jpg"});
  }

  lemma JpgEntry()
    ensures ".jpg" in ExtensionsMap && ExtensionsMap[".jpg"] == "image/jpeg"
  {
  }

  lemma CssEntry()
    ensures ".css" in ExtensionsMap && ExtensionsMap[".css"] == "text/css"
  {
  }


  /** `do_GET`'s redirect target: the request path with every trailing slash removed. */
  function RedirectLocation(path: string): string {
    TrimEnd(path, IsSlash)
  }

  /** The redirect target ends in no slash, and the request is it followed by slashes only. */
  lemma RedirectLocationShape(path: string)
    ensures var loc := RedirectLocation(path);
      && (loc == [] || loc[|loc| - 1] != '/')
      && loc == path[..|loc|]
      && forall k :: |loc| <= k < |path| ==> path[k] == '/'
  {
  }

  /** The link back to the root on the not-found page. */
  const HomeLink: string := "<a href='/'>"

  /** The fixed body of the not-found page. */
  const NotFoundBody: string :=
    "<html><h1>404 Not Found</h1>" + HomeLink + "Go Back</a><hr><code>Saisho Serve</code></html>"

  /** The not-found page links back to the root. */
  lemma NotFoundLinksHome()
    ensures |NotFoundBody| >= 40 && NotFoundBody[28..40] == HomeLink
  {
  }

  /**
   * What the client gets back: the bytes of a file under the output folder
   * as they are; that file's text as `read_text` returns it, encoded again,
   * which is its bytes with each "\r\n" and each lone "\r" read as "\n"
   * (universal newlines); a fixed text; or nothing.
   */
  datatype Body = FileContents(name: string) | NewlinesTranslated(name: string) | Literal(text: string) | NoBody

  datatype Response = Response(code: int, location: Option<string>, contentType: string, body: Body)

  /**
   * `do_GET` as written, with `decodes` the names under the output folder
   * whose bytes are UTF-8 text. A found file is read with
   * `read_text(encoding="utf-8")`, which raises on any other file and
   * translates the newlines of one that decodes; the 301
   * branch calls `_send_response` with one argument where three are
   * required, so it raises too. Where it raises, nothing is sent.
   */
  function DoGetAsWritten(path: string, existing: set<string>, decodes: set<string>): Option<Response> {
    var route := ParseRequest(path, existing);
    if route.code == 200 then
      if route.path.name in decodes then Some(Response(200, None, route.contentType, NewlinesTranslated(route.path.name)))
      else None
    else if route.code == 301 then None
    else Some(Response(route.code, None, route.contentType, Literal(NotFoundBody)))
  }

  /** As written, no directory-style request gets an answer: "/posts/" is one. */
  lemma RedirectNeverAnswered(path: string, existing: set<string>, decodes: set<string>)
    requires path != "/" && EndsWith(path, "/")
    ensures DoGetAsWritten(path, existing, decodes) == None
    ensures DoGetAsWritten("/posts/", existing, decodes) == None
  {
    TrailingSlashRedirects("/posts/", existing, existing);
  }

  /**
   * As written, a found file that is not UTF-8 text gets no answer: an image
   * such as "/logo.jpg", whose JPEG bytes start with 0xFF, is one.
   */
  lemma BinaryFileNeverAnswered(path: string, existing: set<string>, decodes: set<string>)
    requires ParseRequest(path, existing).code == 200 && ParseRequest(path, existing).path.name !in decodes
    ensures DoGetAsWritten(path, existing, decodes) == None
    ensures DoGetAsWritten("/logo.jpg", {"logo.jpg"}, {}) == None
  {
    LogoServedAsJpeg();
  }

  /**
   * `do_GET` as evidently intended: a redirect to `RedirectLocation` with
   * no body; otherwise the file's bytes as they are, or the not-found page.
   */
  function DoGet(path: string, existing: set<string>): (r: Response)
    ensures r.code == ParseRequest(path, existing).code
    ensures r.code == 200 ==>
      var route := ParseRequest(path, existing);
      r.body == FileContents(route.path.name) && r.contentType == route.contentType
    ensures r.code == 404 ==> r.body == Literal(NotFoundBody) && r.contentType == "text/html"
    ensures r.location.Some? <==> r.code == 301
  {
    var route := ParseRequest(path, existing);
    if route.code == 200 then Response(200, None, route.contentType, FileContents(route.path.name))
    else if route.code == 301 then Response(301, Some(RedirectLocation(path)), route.contentType, NoBody)
    else Response(route.code, None, route.contentType, Literal(NotFoundBody))
  }

  /**
   * Every directory-style request is answered with a redirect to the same
   * path without its trailing slashes, and every found file with its
   * contents whatever bytes they are. Whatever the written code answers is
   * answered with the same code, Location and type, and with the same body
   * except that a found file's bytes are sent as they are, not with their
   * newlines translated.
   */
  lemma DoGetAnswersEverything(path: string, existing: set<string>, decodes: set<string>)
    ensures path != "/" && EndsWith(path, "/") ==>
      DoGet(path, existing).location == Some(RedirectLocation(path))
    ensures DoGetAsWritten(path, existing, decodes).Some? ==>
      var written, intended := DoGetAsWritten(path, existing, decodes).value, DoGet(path, existing);
      && written.code == intended.code
      && written.location == intended.location
      && written.contentType == intended.contentType
      && (written.code != 200 ==> written.body == intended.body)
      && (written.code == 200 ==>
        var name := ParseRequest(path, existing).path.name;
        written.body == NewlinesTranslated(name) && intended.body == FileContents(name))
  {
  }
}

=== FILE: Text.dfy ===
/**
 * The handful of Python `str` operations the site generator and the preview
 * server rely on, on `string` = `seq<char>`: `endswith`, `split` with a
 * one-character separator, `"".join`, `strip`, `lstrip`/`rstrip` of one
 * character, the text after the last occurrence of a character, and the
 * decimal rendering of integers (`str(n)`).
 */
module Text {

  predicate EndsWith(s: string, suffix: string) {
    |suffix| <= |s| && s[|s| - |suffix|..] == suffix
  }

  lemma EndsWithTransitive(s: string, t: string, u: string)
    requires EndsWith(s, t) && EndsWith(t, u)
    ensures EndsWith(s, u)
  {
    assert s[|s| - |u|..] == t[|t| - |u|..];
  }

  lemma Associative<T>(a: seq<T>, b: seq<T>, c: seq<T>)
    ensures a + (b + c) == (a + b) + c
  {
  }

  /** Number of occurrences of `c` in `s`. */
  function Count(s: string, c: char): nat {
    if s == [] then 0 else (if s[0] == c then 1 else 0) + Count(s[1..], c)
  }

  /**
   * `s.split(c)`: the pieces between consecutive occurrences of `c`, so there
   * is always one piece more than there are separators and none of them
   * contains the separator.
   */
  function Split(s: string, c: char): (parts: seq<string>)
    ensures |parts| == Count(s, c) + 1
    ensures forall k :: 0 <= k < |parts| ==> c !in parts[k]
  {
    if s == [] then [""]
    else
      var rest := Split(s[1..], c);
      if s[0] == c then [""] + rest
      else [[s[0]] + rest[0]] + rest[1..]
  }

  /** `c.join(parts)` for a one-character separator. */
  function JoinWith(parts: seq<string>, c: char): string {
    if parts == [] then ""
    else if |parts| == 1 then parts[0]
    else parts[0] + [c] + JoinWith(parts[1..], c)
  }

  /** `"".join(parts)`: the pieces glued together with nothing in between. */
  function Concat(parts: seq<string>): string {
    if parts == [] then "" else parts[0] + Concat(parts[1..])
  }

  /** Gluing two runs of pieces is gluing each and putting the results side by side. */
  lemma {:induction false} ConcatAppend(a: seq<string>, b: seq<string>)
    ensures Concat(a + b) == Concat(a) + Concat(b)
  {
    if a != [] {
      assert (a + b)[1..] == a[1..] + b;
      ConcatAppend(a[1..], b);
      Associative(a[0], Concat(a[1..]), Concat(b));
    } else {
      assert a + b == b;
    }
  }

  /** A single piece is glued into itself. */
  lemma ConcatOne(x: string)
    ensures Concat([x]) == x
  {
    assert [x][1..] == [];
  }

  /** Joining the pieces of a split with the same separator gives back the original. */
  lemma {:induction false} JoinSplit(s: string, c: char)
    ensures JoinWith(Split(s, c), c) == s
  {
    if s != [] {
      var rest := Split(s[1..], c);
      JoinSplit(s[1..], c);
      if s[0] == c {
        assert Split(s, c) == [""] + rest;
        assert JoinWith([""] + rest, c) == "" + [c] + JoinWith(rest, c);
      } else {
        var parts := Split(s, c);
        assert parts == [[s[0]] + rest[0]] + rest[1..];
        if |rest| == 1 {
          assert JoinWith(parts, c) == [s[0]] + rest[0];
        } else {
          assert JoinWith(parts, c) == [s[0]] + rest[0] + [c] + JoinWith(rest[1..], c);
          assert JoinWith(rest, c) == rest[0] + [c] + JoinWith(rest[1..], c);
        }
      }
    }
  }

  /** A piece free of the separator, followed by the separator, is split off whole. */
  lemma {:induction false} SplitAfterPiece(p: string, c: char, t: string)
    requires c !in p
    ensures Split(p + [c] + t, c) == [p] + Split(t, c)
  {
    if p == [] {
      assert p + [c] + t == [c] + t;
      assert ([c] + t)[1..] == t;
    } else {
      SplitAfterPiece(p[1..], c, t);
      assert (p + [c] + t)[1..] == p[1..] + [c] + t;
      assert [p[0]] + p[1..] == p;
    }
  }

  /** A string without the separator splits into itself alone. */
  lemma {:induction false} SplitWithout(p: string, c: char)
    requires c !in p
    ensures Split(p, c) == [p]
  {
    if p != [] {
      SplitWithout(p[1..], c);
      assert [p[0]] + p[1..] == p;
    }
  }

  /** Splitting a join of separator-free pieces gives back the pieces. */
  lemma {:induction false} SplitJoin(parts: seq<string>, c: char)
    requires |parts| >= 1
    requires forall k :: 0 <= k < |parts| ==> c !in parts[k]
    ensures Split(JoinWith(parts, c), c) == parts
  {
    if |parts| == 1 {
      SplitWithout(parts[0], c);
    } else {
      SplitJoin(parts[1..], c);
      SplitAfterPiece(parts[0], c, JoinWith(parts[1..], c));
      assert [parts[0]] + parts[1..] == parts;
    }
  }

  /** `lstrip` with a set of characters: drops the longest prefix made of them. */
  function TrimStart(s: string, drop: char -> bool): (r: string)
    ensures |r| <= |s| && r == s[|s| - |r|..]
    ensures forall k :: 0 <= k < |s| - |r| ==> drop(s[k])
    ensures r == [] || !drop(r[0])
  {
    if s != [] && drop(s[0]) then
      var r := TrimStart(s[1..], drop);
      assert r == s[|s| - |r|..] by {
        assert s[1..][|s| - 1 - |r|..] == s[|s| - |r|..];
      }
      assert forall k :: 1 <= k < |s| - |r| ==> drop(s[k]) by {
        forall k | 1 <= k < |s| - |r| ensures drop(s[k]) {
          assert s[k] == s[1..][k - 1];
        }
      }
      r
    else
      s
  }

  /** `rstrip` with a set of characters: drops the longest suffix made of them. */
  function TrimEnd(s: string, drop: char -> bool): (r: string)
    ensures |r| <= |s| && r == s[..|r|]
    ensures forall k :: |r| <= k < |s| ==> drop(s[k])
    ensures r == [] || !drop(r[|r| - 1])
  {
    if s != [] && drop(s[|s| - 1]) then
      var r := TrimEnd(s[..|s| - 1], drop);
      assert r == s[..|r|] by {
        assert s[..|s| - 1][..|r|] == s[..|r|];
      }
      assert forall k :: |r| <= k < |s| - 1 ==> drop(s[k]) by {
        forall k | |r| <= k < |s| - 1 ensures drop(s[k]) {
          assert s[k] == s[..|s| - 1][k];
        }
      }
      r
    else
      s
  }

  /** The characters Python's `str.isspace` accepts. */
  const Whitespace: set<char> := {
    '\t', '\n', '\U{0b}', '\U{0c}', '\r', '\U{1c}', '\U{1d}', '\U{1e}', '\U{1f}', ' ',
    '\U{85}', '\U{a0}', '\U{1680}',
    '\U{2000}', '\U{2001}', '\U{2002}', '\U{2003}', '\U{2004}', '\U{2005}',
    '\U{2006}', '\U{2007}', '\U{2008}', '\U{2009}', '\U{200a}',
    '\U{2028}', '\U{2029}', '\U{202f}', '\U{205f}', '\U{3000}'
  }

  /** Python's `str.isspace` for one character. */
  predicate IsSpace(ch: char) {
    ch in Whitespace
  }

  /** How many whitespace characters `s` starts with. */
  function LeadingSpaces(s: string): (n: nat)
    ensures n <= |s|
    ensures forall k :: 0 <= k < n ==> IsSpace(s[k])
    ensures n < |s| ==> !IsSpace(s[n])
  {
    if s != [] && IsSpace(s[0]) then
      var n := LeadingSpaces(s[1..]);
      assert forall k :: 1 <= k <= n ==> s[k] == s[1..][k - 1];
      1 + n
    else
      0
  }

  /** How many whitespace characters `s` ends with. */
  function TrailingSpaces(s: string): (n: nat)
    ensures n <= |s|
    ensures forall k :: |s| - n <= k < |s| ==> IsSpace(s[k])
    ensures n < |s| ==> !IsSpace(s[|s| - n - 1])
  {
    if s != [] && IsSpace(s[|s| - 1]) then
      var n := TrailingSpaces(s[..|s| - 1]);
      assert forall k :: |s| - 1 - n <= k < |s| - 1 ==> s[k] == s[..|s| - 1][k];
      1 + n
    else
      0
  }

  /** `s.strip()`: the infix of `s` left after removing whitespace at both ends. */
  function Strip(s: string): (r: string)
    ensures var i := LeadingSpaces(s);
      && i + |r| <= |s| && r == s[i..i + |r|]
      && (forall k :: 0 <= k < i ==> IsSpace(s[k]))
      && (forall k :: i + |r| <= k < |s| ==> IsSpace(s[k]))
    ensures r == [] || (!IsSpace(r[0]) && !IsSpace(r[|r| - 1]))
  {
    var i := LeadingSpaces(s);
    var j := |s| - TrailingSpaces(s[i..]);
    assert forall k :: j <= k < |s| ==> s[k] == s[i..][k - i];
    assert i < j ==> s[j - 1] == s[i..][j - 1 - i];
    s[i..j]
  }

  /**
   * The text after the last `c` in `s`, or all of `s` when it has no `c`
   * (`s.split(c)[-1]`, `s.rpartition(c)[2]`).
   */
  function AfterLast(s: string, c: char): (r: string)
    ensures |r| <= |s| && r == s[|s| - |r|..] && c !in r
    ensures |r| < |s| ==> s[|s| - |r| - 1] == c
  {
    if s == [] || s[|s| - 1] == c then [] else AfterLast(s[..|s| - 1], c) + [s[|s| - 1]]
  }

  /** `s.rfind(c)`: the index of the last `c` in `s`, or -1 when there is none. */
  function LastIndex(s: string, c: char): (i: int)
    ensures -1 <= i < |s|
    ensures i >= 0 ==> s[i] == c
    ensures forall k :: i < k < |s| ==> s[k] != c
  {
    if s == [] then -1
    else if s[|s| - 1] == c then |s| - 1
    else LastIndex(s[..|s| - 1], c)
  }
  /** The last `c` is at `i` when `s[i]` is one and none follows it. */
  lemma LastIndexAt(s: string, c: char, i: int)
    requires 0 <= i < |s| && s[i] == c
    requires forall k :: i < k < |s| ==> s[k] != c
    ensures LastIndex(s, c) == i
  {
  }


  /** What follows the last `c` is unchanged by text added in front of it. */
  lemma {:induction false} AfterLastOfTail(s: string, c: char, t: string)
    requires c !in t
    ensures AfterLast(s + [c] + t, c) == t
  {
    if t != [] {
      var u := s + [c] + t;
      assert u[..|u| - 1] == s + [c] + t[..|t| - 1];
      AfterLastOfTail(s, c, t[..|t| - 1]);
      assert t[..|t| - 1] + [t[|t| - 1]] == t;
    } else {
      assert s + [c] + t == s + [c];
    }
  }

  /** Text free of `c` at the end of a string stays inside what follows its last `c`. */
  lemma AfterLastKeepsTail(s: string, c: char, t: string)
    requires EndsWith(s, t) && c !in t
    ensures EndsWith(AfterLast(s, c), t)
  {
    var r := AfterLast(s, c);
    assert forall k :: |s| - |t| <= k < |s| ==> s[k] == t[k - (|s| - |t|)];
    assert |r| >= |t|;
    assert r[|r| - |t|..] == s[|s| - |t|..];
  }

  predicate IsDigit(ch: char) {
    '0' <= ch <= '9'
  }

  predicate AllDigits(s: string) {
    forall k :: 0 <= k < |s| ==> IsDigit(s[k])
  }

  function DigitValue(ch: char): nat
    requires IsDigit(ch)
  {
    (ch as int) - ('0' as int)
  }

  function DigitChar(d: nat): (ch: char)
    requires d < 10
    ensures IsDigit(ch) && DigitValue(ch) == d
  {
    (('0' as int) + d) as char
  }

  /** The number a string of decimal digits denotes (`int(s)` for ASCII digits). */
  function DigitsValue(s: string): nat
    requires AllDigits(s)
  {
    if s == [] then 0 else 10 * DigitsValue(s[..|s| - 1]) + DigitValue(s[|s| - 1])
  }

  /** `str(n)` for `n >= 0`: digits only, no leading zero, and it reads back as `n`. */
  function NatToDecimal(n: nat): (s: string)
    ensures |s| >= 1 && AllDigits(s) && DigitsValue(s) == n
    ensures |s| > 1 ==> s[0] != '0'
  {
    if n < 10 then [DigitChar(n)]
    else
      var front := NatToDecimal(n / 10);
      var s := front + [DigitChar(n % 10)];
      assert s[..|s| - 1] == front;
      assert |front| == 1 ==> DigitsValue(front) == DigitValue(front[0]);
      s
  }

  /** `str(n)` for any integer: a minus sign for a negative one, then the digits of its size. */
  function IntToDecimal(n: int): (s: string)
    ensures n >= 0 ==> |s| >= 1 && AllDigits(s) && DigitsValue(s) == n && (|s| > 1 ==> s[0] != '0')
    ensures n < 0 ==>
      && |s| >= 2 && s[0] == '-' && AllDigits(s[1..]) && DigitsValue(s[1..]) == -n
      && (|s| > 2 ==> s[1] != '0')
  {
    if n < 0 then
      var digits := NatToDecimal(-n);
      assert ("-" + digits)[1..] == digits;
      "-" + digits
    else NatToDecimal(n)
  }
}

=== FILE: Wrappers.dfy ===
/** Option and Result: the source's `False`/`None` returns and raised exceptions as values. */
module Wrappers {

  datatype Option<+T> = None | Some(value: T)

  datatype Result<+T, +E> = Ok(value: T) | Err(error: E)
}

=== FILE: YearGroups.dfy ===
/**
 * What `build_pages` hands to the index template: the entries bucketed by
 * year, the years in descending order, and each bucket sorted by date,
 * latest first, with `sorted`'s stability keeping entries of the same date
 * in entry-db order.
 */
module YearGroups {
  import opened Text
  import opened Dates
  import opened Entries

  /** One `years[year]` bucket of the ordered dict. */
  datatype YearGroup = YearGroup(year: int, entries: seq<Entry>)

  /** What entries are selected by: their year, or their date. */
  datatype Key = YearKey(year: int) | DateKey(date: Date)

  predicate Matches(e: Entry, k: Key) {
    match k
    case YearKey(y) => e.year == y
    case DateKey(d) => e.date == d
  }

  /** The entries of `s` that match `k`, in the order of `s`. */
  function Having(s: seq<Entry>, k: Key): (r: seq<Entry>)
    ensures |r| <= |s|
  {
    if s == [] then []
    else Having(s[..|s| - 1], k) + (if Matches(s[|s| - 1], k) then [s[|s| - 1]] else [])
  }

  /** `Having` keeps exactly the entries that match. */
  lemma {:induction false} HavingMembers(s: seq<Entry>, k: Key)
    ensures forall e :: e in Having(s, k) <==> e in s && Matches(e, k)
  {
    if s != [] {
      var front := s[..|s| - 1];
      HavingMembers(front, k);
      assert s == front + [s[|s| - 1]];
    }
  }

  lemma {:induction false} HavingAppend(a: seq<Entry>, b: seq<Entry>, k: Key)
    ensures Having(a + b, k) == Having(a, k) + Having(b, k)
  {
    if b != [] {
      var b', last := b[..|b| - 1], b[|b| - 1];
      var tail := if Matches(last, k) then [last] else [];
      assert (a + b)[..|a + b| - 1] == a + b';
      assert (a + b)[|a + b| - 1] == last;
      calc {
        Having(a + b, k);
        Having(a + b', k) + tail;
        { HavingAppend(a, b', k); }
        (Having(a, k) + Having(b', k)) + tail;
        { Associative(Having(a, k), Having(b', k), tail); }
        Having(a, k) + (Having(b', k) + tail);
      }
    } else {
      assert a + b == a;
    }
  }

  /** Some entry of `db` is from year `y`. */
  predicate HasYear(db: seq<Entry>, y: int) {
    exists k :: 0 <= k < |db| && db[k].year == y
  }

  /** A year no entry has selects nothing. */
  lemma NoYearNoHaving(s: seq<Entry>, y: int)
    requires !HasYear(s, y)
    ensures Having(s, YearKey(y)) == []
  {
    forall x | x in s
      ensures !Matches(x, YearKey(y))
    {
      var k :| 0 <= k < |s| && s[k] == x;
    }
    HavingNone(s, YearKey(y));
  }

  /**
   * The `years` dict after the bucketing loop: a key for each year that
   * occurs, holding that year's entries in entry-db order.
   */
  function GroupByYear(db: seq<Entry>): (years: map<int, seq<Entry>>)
    ensures forall y :: y in years <==> HasYear(db, y)
    ensures forall y :: y in years ==> years[y] == Having(db, YearKey(y))
  {
    if db == [] then map[]
    else
      var front, e := db[..|db| - 1], db[|db| - 1];
      var years := GroupByYear(front);
      assert forall k :: 0 <= k < |front| ==> db[k] == front[k];
      assert forall y :: HasYear(db, y) <==> HasYear(front, y) || e.year == y;
      assert e.year !in years ==> Having(front, YearKey(e.year)) == [] by {
        if e.year !in years {
          NoYearNoHaving(front, e.year);
        }
      }
      years[e.year := (if e.year in years then years[e.year] else []) + [e]]
  }

  predicate Distinct(ys: seq<int>) {
    forall i, j :: 0 <= i < j < |ys| ==> ys[i] != ys[j]
  }

  predicate StrictlyDescending(ys: seq<int>) {
    forall i, j :: 0 <= i < j < |ys| ==> ys[i] > ys[j]
  }

  /** The keys of the `years` dict in insertion order: each year where it first occurs. */
  function YearsInOrder(db: seq<Entry>): (ys: seq<int>)
    ensures Distinct(ys)
    ensures forall y :: y in ys <==> HasYear(db, y)
  {
    if db == [] then []
    else
      var front, e := db[..|db| - 1], db[|db| - 1];
      var ys := YearsInOrder(front);
      assert forall k :: 0 <= k < |front| ==> db[k] == front[k];
      assert forall y :: HasYear(db, y) <==> HasYear(front, y) || e.year == y;
      if e.year in ys then ys else ys + [e.year]
  }

  function InsertYear(s: seq<int>, y: int): (r: seq<int>)
    requires StrictlyDescending(s) && y !in s
    ensures StrictlyDescending(r)
    ensures |r| == |s| + 1 && forall z :: z in r <==> z == y || z in s
  {
    if s == [] then [y]
    else if y > s[0] then [y] + s
    else
      var rest := InsertYear(s[1..], y);
      assert forall z :: z in rest ==> z < s[0] by {
        forall z | z in rest ensures z < s[0] {
          if z != y {
            var k :| 0 <= k < |s[1..]| && s[1..][k] == z;
            assert s[k + 1] == z;
          }
        }
      }
      assert s == [s[0]] + s[1..];
      ConsDescending(s[0], rest);
      [s[0]] + rest
  }

  lemma ConsDescending(x: int, s: seq<int>)
    requires StrictlyDescending(s) && forall z :: z in s ==> z < x
    ensures StrictlyDescending([x] + s)
  {
    var r := [x] + s;
    assert forall j :: 0 < j < |r| ==> r[j] == s[j - 1] && r[j] in s;
  }

  /** `sorted(years, reverse=True)` for distinct years. */
  function SortYearsDesc(ys: seq<int>): (r: seq<int>)
    requires Distinct(ys)
    ensures StrictlyDescending(r)
    ensures |r| == |ys| && forall z :: z in r <==> z in ys
  {
    if ys == [] then []
    else
      assert ys == ys[..|ys| - 1] + [ys[|ys| - 1]];
      InsertYear(SortYearsDesc(ys[..|ys| - 1]), ys[|ys| - 1])
  }

  /** Latest first: no entry is later than one before it. */
  predicate DateDescending(s: seq<Entry>) {
    forall i, j :: 0 <= i < j < |s| ==> !Later(s[j].date, s[i].date)
  }

  /** Puts `e` after every entry that is not strictly earlier than it. */
  function Insert(s: seq<Entry>, e: Entry): seq<Entry> {
    if s == [] then [e]
    else if Later(e.date, s[0].date) then [e] + s
    else [s[0]] + Insert(s[1..], e)
  }

  /** Inserting adds `e` and loses nothing. */
  lemma {:induction false} InsertPermutes(s: seq<Entry>, e: Entry)
    ensures multiset(Insert(s, e)) == multiset(s) + multiset{e}
  {
    if s != [] && !Later(e.date, s[0].date) {
      InsertPermutes(s[1..], e);
      assert s == [s[0]] + s[1..];
    }
  }

  /** No entry of `s` is later than `x`. */
  predicate NoneLater(x: Entry, s: seq<Entry>) {
    forall j :: 0 <= j < |s| ==> !Later(s[j].date, x.date)
  }

  lemma ConsSorted(x: Entry, s: seq<Entry>)
    requires NoneLater(x, s) && DateDescending(s)
    ensures DateDescending([x] + s)
  {
    var r := [x] + s;
    forall i, j | 0 <= i < j < |r| ensures !Later(r[j].date, r[i].date) {
      if i == 0 {
        assert r[j] == s[j - 1];
      } else {
        assert r[i] == s[i - 1] && r[j] == s[j - 1];
      }
    }
  }

  lemma {:induction false} NoneLaterInsert(x: Entry, t: seq<Entry>, e: Entry)
    requires NoneLater(x, t) && !Later(e.date, x.date)
    ensures NoneLater(x, Insert(t, e))
  {
    if t != [] && !Later(e.date, t[0].date) {
      NoneLaterInsert(x, t[1..], e);
      var r := Insert(t, e);
      assert r == [t[0]] + Insert(t[1..], e);
      forall j | 0 <= j < |r| ensures !Later(r[j].date, x.date) {
        if j > 0 {
          assert r[j] == Insert(t[1..], e)[j - 1];
        }
      }
    }
  }

  /** Inserting into a sorted sequence keeps it sorted. */
  lemma {:induction false} InsertSorted(s: seq<Entry>, e: Entry)
    requires DateDescending(s)
    ensures DateDescending(Insert(s, e))
  {
    if s == [] {
      assert Insert(s, e) == [e];
    } else if Later(e.date, s[0].date) {
      assert NoneLater(e, s) by {
        forall j | 0 <= j < |s| ensures !Later(s[j].date, e.date) {
          assert j == 0 || !Later(s[j].date, s[0].date);
        }
      }
      ConsSorted(e, s);
    } else {
      var tail := s[1..];
      assert DateDescending(tail) by {
        forall i, j | 0 <= i < j < |tail| ensures !Later(tail[j].date, tail[i].date) {
          assert tail[i] == s[i + 1] && tail[j] == s[j + 1];
        }
      }
      assert NoneLater(s[0], tail) by {
        forall j | 0 <= j < |tail| ensures !Later(tail[j].date, s[0].date) {
          assert tail[j] == s[j + 1];
        }
      }
      InsertSorted(tail, e);
      NoneLaterInsert(s[0], tail, e);
      ConsSorted(s[0], Insert(tail, e));
    }
  }

  /** `sorted(entries, key=lambda entry: entry.date, reverse=True)`. */
  function SortByDateDesc(s: seq<Entry>): seq<Entry> {
    if s == [] then [] else Insert(SortByDateDesc(s[..|s| - 1]), s[|s| - 1])
  }

  /** The sort puts the entries latest first. */
  lemma {:induction false} SortSorted(s: seq<Entry>)
    ensures DateDescending(SortByDateDesc(s))
  {
    if s != [] {
      SortSorted(s[..|s| - 1]);
      InsertSorted(SortByDateDesc(s[..|s| - 1]), s[|s| - 1]);
    }
  }

  /** The sort rearranges the entries and does nothing else to them. */
  lemma {:induction false} SortPermutes(s: seq<Entry>)
    ensures multiset(SortByDateDesc(s)) == multiset(s)
  {
    if s != [] {
      var front, last := s[..|s| - 1], s[|s| - 1];
      var sorted := SortByDateDesc(front);
      calc {
        multiset(SortByDateDesc(s));
        multiset(Insert(sorted, last));
        { InsertPermutes(sorted, last); }
        multiset(sorted) + multiset{last};
        { SortPermutes(front); }
        multiset(front) + multiset{last};
        { MultisetSnoc(front, last); }
        multiset(front + [last]);
        { assert front + [last] == s; }
        multiset(s);
      }
    }
  }

  lemma MultisetSnoc(a: seq<Entry>, x: Entry)
    ensures multiset(a + [x]) == multiset(a) + multiset{x}
  {
  }


  /** Inserting `e` adds it after the entries of its own date and moves none of them. */
  lemma {:induction false} InsertStable(s: seq<Entry>, e: Entry, d: Date)
    requires DateDescending(s)
    ensures Having(Insert(s, e), DateKey(d)) == Having(s, DateKey(d)) + (if e.date == d then [e] else [])
  {
    var k := DateKey(d);
    var added := if e.date == d then [e] else [];
    HavingOne(e, k);
    if s == [] {
      assert Having([], k) == [];
    } else if Later(e.date, s[0].date) {
      assert Insert(s, e) == [e] + s;
      HavingAppend([e], s, k);
      if e.date == d {
        EarlierThanFirst(s, e);
        HavingNone(s, k);
        assert Having(Insert(s, e), k) == [e] + [];
      } else {
        assert Having(Insert(s, e), k) == [] + Having(s, k);
      }
    } else {
      var head, tail := [s[0]], s[1..];
      calc {
        Having(Insert(s, e), k);
        Having(head + Insert(tail, e), k);
        { HavingAppend(head, Insert(tail, e), k); }
        Having(head, k) + Having(Insert(tail, e), k);
        { InsertStable(tail, e, d); }
        Having(head, k) + (Having(tail, k) + added);
        { Associative(Having(head, k), Having(tail, k), added); }
        (Having(head, k) + Having(tail, k)) + added;
        { HavingAppend(head, tail, k); }
        Having(head + tail, k) + added;
        { assert head + tail == s; }
        Having(s, k) + added;
      }
    }
  }


  lemma HavingOne(e: Entry, k: Key)
    ensures Having([e], k) == if Matches(e, k) then [e] else []
  {
    assert [e][..0] == [];
  }

  lemma HavingNone(s: seq<Entry>, k: Key)
    requires forall x :: x in s ==> !Matches(x, k)
    ensures Having(s, k) == []
  {
    var h := Having(s, k);
    assert forall i :: 0 <= i < |h| ==> h[i] in h;
  }

  /** An entry later than the first of a sorted sequence shares its date with none of them. */
  lemma EarlierThanFirst(s: seq<Entry>, e: Entry)
    requires DateDescending(s) && s != [] && Later(e.date, s[0].date)
    ensures forall x :: x in s ==> x.date != e.date
  {
    forall x | x in s ensures x.date != e.date {
      var j :| 0 <= j < |s| && s[j] == x;
      assert j == 0 || !Later(s[j].date, s[0].date);
    }
  }

  /** The sort is stable: the entries of any one date stay in their original order. */
  lemma {:induction false} SortStable(s: seq<Entry>, d: Date)
    ensures Having(SortByDateDesc(s), DateKey(d)) == Having(s, DateKey(d))
  {
    if s != [] {
      var k := DateKey(d);
      var front, e := s[..|s| - 1], s[|s| - 1];
      var sorted := SortByDateDesc(front);
      SortSorted(front);
      var added := if e.date == d then [e] else [];
      calc {
        Having(SortByDateDesc(s), k);
        Having(Insert(sorted, e), k);
        { InsertStable(sorted, e, d); }
        Having(sorted, k) + added;
        { SortStable(front, d); }
        Having(front, k) + added;
        { HavingOne(e, k); }
        Having(front, k) + Having([e], k);
        { HavingAppend(front, [e], k); assert front + [e] == s; }
        Having(s, k);
      }
    }
  }


  /**
   * The `years` dict `build_pages` renders the index from, as a sequence of
   * buckets in key order.
   */
  function Aggregate(db: seq<Entry>): (groups: seq<YearGroup>)
    ensures |groups| == |YearsInOrder(db)|
  {
    Buckets(db, SortYearsDesc(YearsInOrder(db)))
  }

  /** The bucket of each of the years `ys`, in the order of `ys`. */
  function Buckets(db: seq<Entry>, ys: seq<int>): (groups: seq<YearGroup>)
    ensures |groups| == |ys|
  {
    if ys == [] then [] else Buckets(db, ys[..|ys| - 1]) + [Bucket(db, ys[|ys| - 1])]
  }

  lemma BucketsSnoc(db: seq<Entry>, ys: seq<int>, j: nat)
    requires j < |ys|
    ensures Buckets(db, ys[..j + 1]) == Buckets(db, ys[..j]) + [Bucket(db, ys[j])]
  {
    assert ys[..j + 1][..j] == ys[..j];
  }

  lemma {:induction false} BucketsAt(db: seq<Entry>, ys: seq<int>, j: nat)
    requires j < |ys|
    ensures Buckets(db, ys)[j] == Bucket(db, ys[j])
  {
    if j < |ys| - 1 {
      BucketsAt(db, ys[..|ys| - 1], j);
    }
  }

  lemma AggregateAt(db: seq<Entry>, j: nat)
    requires j < |YearsInOrder(db)|
    ensures Aggregate(db)[j] == Bucket(db, SortYearsDesc(YearsInOrder(db))[j])
  {
    BucketsAt(db, SortYearsDesc(YearsInOrder(db)), j);
  }

  /** The bucket of year `y`: its entries, latest first. */
  function Bucket(db: seq<Entry>, y: int): YearGroup {
    YearGroup(y, SortByDateDesc(Having(db, YearKey(y))))
  }

  /** One bucket per year that occurs, in strictly descending order of year. */
  lemma AggregateYears(db: seq<Entry>)
    ensures var groups := Aggregate(db);
      && (forall i, j :: 0 <= i < j < |groups| ==> groups[i].year > groups[j].year)
      && (forall y :: HasYear(db, y) <==> exists i :: 0 <= i < |groups| && groups[i].year == y)
  {
    var keys := SortYearsDesc(YearsInOrder(db));
    var groups := Aggregate(db);
    forall i | 0 <= i < |groups| ensures groups[i].year == keys[i] {
      AggregateAt(db, i);
    }
    forall y | HasYear(db, y) ensures exists i :: 0 <= i < |groups| && groups[i].year == y {
      var i :| 0 <= i < |keys| && keys[i] == y;
      assert groups[i].year == y;
    }
  }

  /**
   * Each bucket holds exactly the entries of its year, none missing and none
   * added, latest first, and entries of the same date in entry-db order.
   */
  lemma AggregateBuckets(db: seq<Entry>)
    ensures var groups := Aggregate(db);
      forall i :: 0 <= i < |groups| ==>
        var g := groups[i];
        && g.entries != []
        && multiset(g.entries) == multiset(Having(db, YearKey(g.year)))
        && (forall e :: e in g.entries ==> e in db && e.year == g.year)
        && DateDescending(g.entries)
        && (forall d :: Having(g.entries, DateKey(d)) == Having(Having(db, YearKey(g.year)), DateKey(d)))
  {
    var keys := SortYearsDesc(YearsInOrder(db));
    var groups := Aggregate(db);
    forall i | 0 <= i < |groups|
      ensures var g := groups[i];
        && g.entries != []
        && multiset(g.entries) == multiset(Having(db, YearKey(g.year)))
        && (forall e :: e in g.entries ==> e in db && e.year == g.year)
        && DateDescending(g.entries)
        && (forall d :: Having(g.entries, DateKey(d)) == Having(Having(db, YearKey(g.year)), DateKey(d)))
    {
      AggregateAt(db, i);
      assert keys[i] in YearsInOrder(db);
      BucketFacts(db, keys[i]);
    }
  }

  /** The bucket of a year that occurs, as `AggregateBuckets` describes it. */
  lemma BucketFacts(db: seq<Entry>, y: int)
    requires HasYear(db, y)
    ensures var g := Bucket(db, y);
      && g.entries != []
      && multiset(g.entries) == multiset(Having(db, YearKey(y)))
      && (forall e :: e in g.entries ==> e in db && e.year == y)
      && DateDescending(g.entries)
      && (forall d :: Having(g.entries, DateKey(d)) == Having(Having(db, YearKey(y)), DateKey(d)))
  {
    var bucket := Having(db, YearKey(y));
    var sorted := SortByDateDesc(bucket);
    SortPermutes(bucket);
    SortSorted(bucket);
    HavingMembers(db, YearKey(y));
    var k :| 0 <= k < |db| && db[k].year == y;
    assert db[k] in bucket;
    assert db[k] in multiset(sorted);
    forall e | e in sorted ensures e in db && e.year == y {
      assert e in multiset(sorted);
    }
    forall d ensures Having(sorted, DateKey(d)) == Having(bucket, DateKey(d)) {
      SortStable(bucket, d);
    }
  }


  /** All the entries of the buckets, one bucket after another. */
  function Flatten(groups: seq<YearGroup>): seq<Entry> {
    if groups == [] then [] else groups[0].entries + Flatten(groups[1..])
  }

  /** The entries of each of the years `ys`, year by year. */
  function Gather(db: seq<Entry>, ys: seq<int>): seq<Entry> {
    if ys == [] then [] else Having(db, YearKey(ys[0])) + Gather(db, ys[1..])
  }

  lemma {:induction false} GatherSnoc(db: seq<Entry>, e: Entry, ys: seq<int>)
    requires Distinct(ys)
    ensures multiset(Gather(db + [e], ys))
      == multiset(Gather(db, ys)) + (if e.year in ys then multiset{e} else multiset{})
  {
    if ys != [] {
      var y, rest := ys[0], ys[1..];
      var here := if e.year == y then multiset{e} else multiset{};
      var there := if e.year in rest then multiset{e} else multiset{};
      GatherSnoc(db, e, rest);
      assert multiset(Having(db + [e], YearKey(y))) == multiset(Having(db, YearKey(y))) + here by {
        HavingAppend(db, [e], YearKey(y));
        HavingOne(e, YearKey(y));
      }
      assert (if e.year in ys then multiset{e} else multiset{}) == here + there by {
        assert e.year in ys <==> e.year == y || e.year in rest;
        assert e.year == y ==> e.year !in rest;
      }
      calc {
        multiset(Gather(db + [e], ys));
        multiset(Having(db + [e], YearKey(y))) + multiset(Gather(db + [e], rest));
        multiset(Having(db, YearKey(y))) + here + (multiset(Gather(db, rest)) + there);
        multiset(Gather(db, ys)) + (here + there);
      }
    }
  }

  lemma {:induction false} GatherAll(db: seq<Entry>, ys: seq<int>)
    requires Distinct(ys)
    requires forall y :: HasYear(db, y) ==> y in ys
    ensures multiset(Gather(db, ys)) == multiset(db)
  {
    if db == [] {
      GatherNone(ys);
    } else {
      var front, e := db[..|db| - 1], db[|db| - 1];
      assert front + [e] == db;
      forall y | HasYear(front, y) ensures y in ys {
        var k :| 0 <= k < |front| && front[k].year == y;
        assert db[k].year == y;
      }
      GatherAll(front, ys);
      GatherSnoc(front, e, ys);
      assert HasYear(db, e.year) by {
        assert db[|db| - 1].year == e.year;
      }
    }
  }

  lemma {:induction false} GatherNone(ys: seq<int>)
    ensures Gather([], ys) == []
  {
    if ys != [] {
      GatherNone(ys[1..]);
    }
  }

  lemma {:induction false} FlattenGather(db: seq<Entry>, ys: seq<int>, groups: seq<YearGroup>)
    requires |groups| == |ys|
    requires forall i :: 0 <= i < |ys| ==> multiset(groups[i].entries) == multiset(Having(db, YearKey(ys[i])))
    ensures multiset(Flatten(groups)) == multiset(Gather(db, ys))
  {
    if ys != [] {
      FlattenGather(db, ys[1..], groups[1..]);
    }
  }

  /** Every entry lands in the buckets exactly as often as it is in the entry db. */
  lemma AggregatePartition(db: seq<Entry>)
    ensures multiset(Flatten(Aggregate(db))) == multiset(db)
  {
    var keys := SortYearsDesc(YearsInOrder(db));
    var groups := Aggregate(db);
    assert StrictlyDescending(keys);
    forall i | 0 <= i < |keys|
      ensures multiset(groups[i].entries) == multiset(Having(db, YearKey(keys[i])))
    {
      AggregateAt(db, i);
      SortPermutes(Having(db, YearKey(keys[i])));
    }
    FlattenGather(db, keys, groups);
    GatherAll(db, keys);
  }
}
